=== FILE: README.md ===
# simpleDB storage and operator core, modelled in Dafny

This project models the core of simpleDB, a small teaching relational
database written in Java. It covers:

- the page-level **lock manager**, with shared READ and exclusive WRITE
  locks per page;
- the **buffer pool**'s page cache, with eviction that prefers clean pages
  and write-back on flush;
- the **heap file**: a table stored as a byte sequence of fixed-size pages;
- the heap file's **tuple iterator**, which walks the file page by page;
- the **string aggregator**, which counts the tuples of each group;
- the **Insert**, **Delete** and **Filter** operators.

Each Java class whose fields are updated in place is a Dafny `class` with
the same fields. Its methods carry `modifies` clauses and are specified
against value-level functions:

- `LockTable.Grant` and `LockTable.Release` for the lock maps;
- `MarkResident` and `CleanAll` for the cache;
- `Overwrite` and `ReadImage` for the file bytes;
- `ConcatFrom` for the scan order;
- `Select` for the filter;
- `CountApplied`, `FirstThrown` and `Requests` for the insert and delete
  loops;
- `Bump` and `Sum` for the aggregate counts.

The properties are proved about those functions as lemmas.

The lock table has two invariants. `WellFormed` also forbids empty shared
sets, and the last reader's release breaks it. `Consistent` is the one that
lasts: it survives every grant that `locked` allows (READ only on a page
with no exclusive entry) and every release by a holder. On a consistent
table, whatever `locked` lets through is compatible with the other
transactions' locks.

Collaborators outside the core become parameters:

- A child operator (`DbIterator`) is a `TupleStream`, a cursor over a
  fixed sequence of tuples (module `Streams`).
- The buffer pool's `getPage` as the heap file sees it is a `Fetcher`
  function.
- The file behind a `HeapFile` is its byte sequence `contents`.
- The pages of the files behind the buffer pool are a `disk` map.
- The lock manager's answer to `getPage` is a `LockStep` parameter. It
  stands for the answer a working lock manager (the top-level
  `LockManager`) would give, not that of the stub `getPage` calls.
- How each `insertTuple`/`deleteTuple` call of the Insert and Delete
  operators ends is an `effect` function: it takes effect, it raises an
  `IOException` (which the operator catches), or it raises an exception
  that propagates.
- Java's `null` results are `Option.None`, and thrown exceptions are
  `Result.Err` / `Outcome.Fail` values.

Several lemmas record behaviour of the code as written that a reader of
its comments would not expect. Each of them exhibits the behaviour on
concrete inputs:

- `SelfReadBreaksExclusivity`: a READ by a page's exclusive holder creates
  a shared entry, and another transaction's READ is then granted beside the
  exclusive lock.
- `EmptySharedSetBlocksWriters`: the last reader's release leaves an empty
  shared set, which locks every later WRITE out.
- `ForeignReleaseDropsExclusive`: releasing a page one does not hold
  removes another transaction's exclusive entry.
- `LastScannedPageMayBeFull`: `HeapFile.insertTuple` inserts into the last
  page scanned, not the page that had room.

One more behaviour of the code as written has no lemma, because it is a
hang rather than a result. `BufferPool` declares its own nested stub
`LockManager`, and `getPage` calls that stub's `acquireLock`
(BufferPool.java:85). The stub's `locked` always answers true, so its
retry loop never ends. As written, `getPage` therefore blocks forever
before it reaches the cache.

Where the code and its documentation disagree, the model follows the code:

- `StringAggregator.iterator` returns two-field rows (key, count) even
  without grouping, whereas its comment promises single-field rows.
- `mergeTupleIntoGroup` reads the type of field `gbfield` before anything
  else, so with no grouping (`gbfield == -1`) every merge throws
  `NoSuchElementException`.
- `Insert` and `Delete` count only the calls that did not raise an
  `IOException`.

## Model

| member | source | states |
|---|---|---|
| `Locking.LockTable.Grant` | src/java/simpledb/LockManager.java:190-216 | the requester holds the page afterwards; READ adds it to the page's shared set (creating the set if absent, and keeping the other sharers) and leaves the exclusive map alone; WRITE makes it the exclusive holder and drops the shared entry; every other page and every other transaction's page set is unchanged |
| `Locking.LockTable.Release` | src/java/simpledb/LockManager.java:165-174 | the transaction no longer holds the page; the page's exclusive entry is gone whoever owned it; the page's shared set loses only this transaction; nothing else changes |
| `Locking.EmptyTableWellFormed` | src/java/simpledb/LockManager.java:27-33 | the empty maps of a new lock manager satisfy the lock-table invariant |
| `Locking.ConsistentHasNoConflict` | src/java/simpledb/LockManager.java:202-206 | when a page never has both an exclusive and a shared entry, no transaction shares a page another holds exclusively |
| `Locking.LockedIffIncompatible` | src/java/simpledb/LockManager.java:118-153 | on a well-formed table, `locked` refuses a request exactly when the request is incompatible with the locks others hold |
| `Locking.ReadBlockedByForeignWriter` | src/java/simpledb/LockManager.java:121-135 | a READ is locked out while another transaction holds the page exclusively |
| `Locking.GrantWritePreservesWellFormed` | src/java/simpledb/LockManager.java:202-216 | a WRITE grant that `locked` allows keeps the lock table well-formed |
| `Locking.GrantReadPreservesWellFormed` | src/java/simpledb/LockManager.java:191-216 | a READ on a page with no exclusive entry is allowed, and granting it keeps the table well-formed |
| `Locking.ReleaseByHolderPreservesConsistent` | src/java/simpledb/LockManager.java:165-174 | a release by the exclusive holder, or on a page with no exclusive entry, keeps the table consistent |
| `Locking.GrantPreservesConsistent` | src/java/simpledb/LockManager.java:182-219 | a grant that `locked` allows keeps the table consistent (no page both exclusive and shared, reverse index exact), provided a READ is not on a page with an exclusive entry |
| `Locking.UnlockedIsCompatible` | src/java/simpledb/LockManager.java:118-153 | on a consistent table, including one with an empty shared set, a request that `locked` lets through is compatible with the other transactions' locks |
| `Locking.ReleasePreservesNoConflict` | src/java/simpledb/LockManager.java:165-174 | a release never creates a read/write conflict |
| `Locking.GrantPreservesNoConflict` | src/java/simpledb/LockManager.java:182-219 | a grant keeps the no-conflict property, except for a READ on a page another transaction holds exclusively |
| `Locking.SelfReadBreaksExclusivity` | src/java/simpledb/LockManager.java:121-135 | as written: after t1's WRITE and then t1's READ, t2's READ passes the check and t2 shares a page t1 holds exclusively |
| `Locking.EmptySharedSetBlocksWriters` | src/java/simpledb/LockManager.java:138-174 | as written: after a READ and its release, nobody holds the page, yet every WRITE on it is locked out |
| `Locking.ForeignReleaseDropsExclusive` | src/java/simpledb/LockManager.java:165-174 | as written: t2 releasing a page held exclusively by t1 removes t1's exclusive entry while t1 still lists the page as held |
| `Locking.LockManager.constructor` | src/java/simpledb/LockManager.java:27-33 | all four maps start empty |
| `Locking.LockManager.HoldsLock` | src/java/simpledb/LockManager.java:86-95 | true exactly when the page is in the transaction's held-page set |
| `Locking.LockManager.IsLockedOut` | src/java/simpledb/LockManager.java:118-153 | the result is the lock table's `Locked`, which on a well-formed table means the request is incompatible with the other transactions' locks |
| `Locking.LockManager.Lock` | src/java/simpledb/LockManager.java:182-219 | granted exactly when not locked out; on a grant the maps become `Grant` of the old maps and the requester holds the page; on a refusal nothing changes |
| `Locking.LockManager.AcquireLock` | src/java/simpledb/LockManager.java:48-71 | with no other transaction acting in between, the lock is granted exactly when the first attempt is, with the same new state |
| `Locking.LockManager.ReleaseLock` | src/java/simpledb/LockManager.java:165-174 | the maps become `Release` of the old maps |
| `Caching.MarkResident` | src/java/simpledb/BufferPool.java:216-220 | marking pages dirty leaves the set of resident ids unchanged, and leaves alone every resident page that is not among the marked pages |
| `Caching.MarkResidentLast` | src/java/simpledb/BufferPool.java:216-220 | a resident page that is marked holds its last copy in the list, dirtied by the transaction |
| `Caching.BufferPool.constructor` | src/java/simpledb/BufferPool.java:45-51 | the pool starts empty with capacity `numPages` |
| `Caching.BufferPool.FlushPage` | src/java/simpledb/BufferPool.java:252-263 | a resident page is written to disk and left clean in the cache; a page that is not resident changes nothing |
| `Caching.BufferPool.FlushAllPages` | src/java/simpledb/BufferPool.java:228-236 | every resident page is clean afterwards and its clean copy is on disk; the disk is otherwise unchanged |
| `Caching.BufferPool.EvictPage` | src/java/simpledb/BufferPool.java:276-300 | exactly one resident page leaves the cache after being written back; a dirty victim is chosen only when every resident page is dirty |
| `Caching.BufferPool.GetPage` | src/java/simpledb/BufferPool.java:79-104 | a deadlock aborts with no change; a hit returns the cached page; a miss evicts one page exactly when the cache is full, then reads the page from disk and caches it, or fails after the eviction when the file has no such page |
| `Caching.BufferPool.PutDirty` | src/java/simpledb/BufferPool.java:178-191 | the page is cached, marked dirty by the transaction; an eviction happens only for a page that was not resident and a full cache, and it writes the victim back |
| `Caching.BufferPool.InsertTuple` | src/java/simpledb/BufferPool.java:167-194 | `Reconciled` with the old cache and disk: the cache stays within capacity; the last returned page is cached dirty; only returned ids enter the cache, and cached pages not returned keep their contents; each returned id is either cached with its last returned copy dirtied by the transaction or, having been evicted after that copy, on disk as that copy clean; a page not returned that left the cache was written back; the disk loses no entry, and the entry of any id that was neither returned nor evicted is unchanged; when the old and the returned ids fit in the cache together, no page is evicted, and otherwise the cache ends full, since each eviction makes room for one new page |
| `Caching.SettledStep` | src/java/simpledb/BufferPool.java:178-191 | one iteration of the loop keeps every one of those facts (given that the cache stays within capacity), with the put page becoming the last copy of its id |
| `Caching.LatestIsLast` | src/java/simpledb/BufferPool.java:178-191 | the copy of an id that the loop leaves in charge is its last occurrence among the returned pages |
| `Caching.BufferPool.DeleteTuple` | src/java/simpledb/BufferPool.java:208-221 | the cache becomes `MarkResident` of the old cache (same resident ids, returned resident pages dirtied) and the disk is untouched |
| `HeapFiles.PageCount` | src/java/simpledb/HeapFile.java:119-122 | the page count is the least `n` with `n * pageSize >= length`, the ceiling of the division |
| `HeapFiles.Overwrite` | src/java/simpledb/HeapFile.java:106-113 | writing at an offset puts the data there, keeps every other byte, and grows the file only as far as the write reaches |
| `HeapFiles.ReadImage` | src/java/simpledb/HeapFile.java:74-100 | a page is read exactly when the table id matches and the page lies wholly inside the file; it then carries the requested id and the file's bytes at that page's offset |
| `HeapFiles.ReadAfterWrite` | src/java/simpledb/HeapFile.java:74-113 | reading a page back after writing it yields the written bytes |
| `HeapFiles.WriteKeepsOtherPages` | src/java/simpledb/HeapFile.java:74-113 | writing one page leaves every other readable page as it was |
| `HeapFiles.AppendGrowsByOne` | src/java/simpledb/HeapFile.java:119-122 | writing a page at index numPages() of a file of whole pages grows numPages() by one |
| `HeapFiles.LastScannedPageMayBeFull` | src/java/simpledb/HeapFile.java:136-146 | as written: a scan in which page 0 has room and the last page is full makes the insert fail |
| `HeapFiles.HeapFile.constructor` | src/java/simpledb/HeapFile.java:32-37 | the table id, schema and file contents are the given ones |
| `HeapFiles.HeapFile.WritePage` | src/java/simpledb/HeapFile.java:103-114 | a negative page number leaves the file unchanged; otherwise the page's bytes land at its offset and read back as written |
| `HeapFiles.HeapFile.ScanPages` | src/java/simpledb/HeapFile.java:129-142 | pages 0.. are fetched in order with READ_WRITE until all numPages() are fetched or one fetch throws; the flag says whether any fetched page had room, and the remembered page is the last one fetched |
| `HeapFiles.HeapFile.AppendPage` | src/java/simpledb/HeapFile.java:147-152 | a new page numbered numPages() holding just the tuple is written and returned; with no slot the insert fails and the file is unchanged |
| `HeapFiles.HeapFile.InsertTuple` | src/java/simpledb/HeapFile.java:125-155 | a fetch failure propagates with the file unchanged; if any page had room, the result is inserting into the last scanned page; otherwise a page is appended; success returns one page |
| `HeapFiles.HeapFile.DeleteTuple` | src/java/simpledb/HeapFile.java:158-171 | a tuple without a record id fails; the page named by the record id is fetched with READ_WRITE; the deletion succeeds exactly when the tuple is on that page, and it returns that page, with the same id, capacity and dirtier, and with one copy of the tuple removed |
| `Scan.ConcatSkipEmpty` | src/java/simpledb/HeapFileIterator.java:29-37 | skipping empty pages does not change what the scan yields |
| `Scan.ConcatMember` | src/java/simpledb/HeapFileIterator.java:44-57 | a tuple is yielded from page `i` on exactly when some page from `i` on holds it |
| `Scan.ConcatAppend` | src/java/simpledb/HeapFileIterator.java:24-57 | scanning two runs of pages yields the first run's tuples, then the second's |
| `Scan.HeapFileIterator.constructor` | src/java/simpledb/HeapFileIterator.java:14-18 | a new iterator is closed, with no current page |
| `Scan.HeapFileIterator.HasNext` | src/java/simpledb/HeapFileIterator.java:40-42 | true exactly when the current page iterator exists and has a tuple left; on a settled cursor, exactly when the scan has something left |
| `Scan.HeapFileIterator.SeekNonEmpty` | src/java/simpledb/HeapFileIterator.java:48-54 | advances past empty pages only, to the next page with a tuple or to the last page, without changing what the scan has left |
| `Scan.HeapFileIterator.Open` | src/java/simpledb/HeapFileIterator.java:24-38 | the scan then yields every tuple of the file in page order, starting from the first non-empty page; hasNext is true exactly when some page has a tuple |
| `Scan.HeapFileIterator.Next` | src/java/simpledb/HeapFileIterator.java:44-57 | a closed iterator throws NoSuchElementException with no change; an open one returns the scan's next tuple and drops it from what is left, or null with no change when nothing is left |
| `Scan.HeapFileIterator.Rewind` | src/java/simpledb/HeapFileIterator.java:59-63 | a closed iterator throws DbException with no change; an open one restarts the scan from the first page |
| `Scan.HeapFileIterator.Close` | src/java/simpledb/HeapFileIterator.java:69-73 | the iterator is inactive with no current page |
| `Scan.ScanAll` | src/java/simpledb/HeapFileIterator.java:24-57 | open, then next while hasNext, returns every tuple of the file exactly once, in page order |
| `Streams.CountAppliedExtremes` | src/java/simpledb/Insert.java:95-104 | the count equals the number of tuples exactly when every call took effect, and is zero exactly when none did |
| `Streams.CountAppliedAppend` | src/java/simpledb/Insert.java:95-104 | the count over two runs of tuples is the sum of their counts |
| `Streams.FirstThrownSpec` | src/java/simpledb/Insert.java:95-104 | the loop stops at a call that throws, after none threw; it runs to the end exactly when no call throws |
| `InsertOperator.RequestsAt` | src/java/simpledb/Insert.java:95-98 | the i-th insertTuple call inserts the i-th child tuple into table `tableid` for `tid` |
| `InsertOperator.Insert.constructor` | src/java/simpledb/Insert.java:30-42 | stores the transaction, child and table, with nothing inserted yet |
| `InsertOperator.Insert.Create` | src/java/simpledb/Insert.java:30-42 | throws DbException exactly when the child's schema differs from the table's |
| `InsertOperator.Insert.GetTupleDesc` | src/java/simpledb/Insert.java:44-47 | the output schema is a single INT field |
| `InsertOperator.Insert.Open` | src/java/simpledb/Insert.java:49-53 | the child restarts from its first tuple |
| `InsertOperator.Insert.Close` | src/java/simpledb/Insert.java:55-59 | the child has nothing left |
| `InsertOperator.Insert.Rewind` | src/java/simpledb/Insert.java:64-68 | the child restarts, and whether the inserts were done is unchanged |
| `InsertOperator.Insert.InsertNext` | src/java/simpledb/Insert.java:95-103 | one loop turn: the next child tuple goes to insertTuple and the call is logged |
| `InsertOperator.Insert.ConsumeChild` | src/java/simpledb/Insert.java:93-104 | every child tuple is inserted in order until one insert throws; the count is the inserts that took effect |
| `InsertOperator.Insert.FetchNext` | src/java/simpledb/Insert.java:87-111 | the first call inserts the child's tuples in order and returns a one-field tuple counting those that did not raise IOException; a propagated exception stops it with the flag unset; later calls return null and change nothing |
| `DeleteOperator.RequestsAt` | src/java/simpledb/Delete.java:75-79 | the i-th deleteTuple call deletes the i-th child tuple for `tid` |
| `DeleteOperator.Delete.constructor` | src/java/simpledb/Delete.java:25-29 | stores the transaction and child, with nothing deleted yet |
| `DeleteOperator.Delete.GetTupleDesc` | src/java/simpledb/Delete.java:31-34 | the output schema is a single INT field |
| `DeleteOperator.Delete.Open` | src/java/simpledb/Delete.java:36-40 | the child restarts from its first tuple |
| `DeleteOperator.Delete.Close` | src/java/simpledb/Delete.java:42-46 | the child has nothing left |
| `DeleteOperator.Delete.Rewind` | src/java/simpledb/Delete.java:50-54 | the child restarts, and whether the deletes were done is unchanged |
| `DeleteOperator.Delete.DeleteNext` | src/java/simpledb/Delete.java:75-83 | one loop turn: the next child tuple goes to deleteTuple and the call is logged |
| `DeleteOperator.Delete.ConsumeChild` | src/java/simpledb/Delete.java:73-84 | every child tuple is deleted in order until one delete throws; the count is the deletes that took effect |
| `DeleteOperator.Delete.FetchNext` | src/java/simpledb/Delete.java:67-91 | the first call deletes the child's tuples in order and returns a one-field tuple counting those that did not raise IOException; a propagated exception stops it with the flag unset; later calls return null and change nothing |
| `FilterOperator.SelectMember` | src/java/simpledb/Filter.java:67-77 | a tuple is in the filter's output exactly when it is in the input and satisfies the predicate |
| `FilterOperator.SelectExtremes` | src/java/simpledb/Filter.java:67-77 | the output is the whole input exactly when every tuple passes, and empty exactly when none does |
| `FilterOperator.SelectIdempotent` | src/java/simpledb/Filter.java:67-77 | filtering the output again with the same predicate changes nothing |
| `FilterOperator.Filter.constructor` | src/java/simpledb/Filter.java:23-27 | stores the predicate and the child |
| `FilterOperator.Filter.GetPredicate` | src/java/simpledb/Filter.java:29-32 | returns the predicate given at construction |
| `FilterOperator.Filter.GetTupleDesc` | src/java/simpledb/Filter.java:34-37 | the output schema is the child's |
| `FilterOperator.Filter.Open` | src/java/simpledb/Filter.java:39-44 | the child restarts from its first tuple |
| `FilterOperator.Filter.Close` | src/java/simpledb/Filter.java:46-50 | the child has nothing left |
| `FilterOperator.Filter.Rewind` | src/java/simpledb/Filter.java:52-55 | the child restarts from its first tuple |
| `FilterOperator.Filter.FetchNext` | src/java/simpledb/Filter.java:67-77 | returns the first remaining child tuple that passes, having skipped only failing ones, or null once the child is exhausted with none passing; the selection of what remains loses exactly the returned tuple |
| `FilterOperator.Filter.GetChildren` | src/java/simpledb/Filter.java:83-88 | a one-element array holding the child |
| `FilterOperator.Filter.SetChildren` | src/java/simpledb/Filter.java:94-97 | the child becomes the first element; an empty array throws and leaves the child unchanged |
| `FilterOperator.SelectRest` | src/java/simpledb/Filter.java:67-77 | calling fetchNext until null yields exactly the child's remaining tuples that pass, in order |
| `Aggregation.InitialCounts` | src/java/simpledb/StringAggregator.java:43-47 | with no grouping the counts start as the single key with count 0, otherwise empty; either way the total is 0 |
| `Aggregation.Bump` | src/java/simpledb/StringAggregator.java:57-63 | an unseen key enters with count 1, a seen key goes up by one, other groups keep their counts, and the total grows by one |
| `Aggregation.GroupKeysMember` | src/java/simpledb/StringAggregator.java:80-87 | a key is among the output rows' keys exactly when some row starts with it |
| `Aggregation.StringAggregator.constructor` | src/java/simpledb/StringAggregator.java:39-47 | stores the fields, with COUNT as operator and the initial counts |
| `Aggregation.StringAggregator.Create` | src/java/simpledb/StringAggregator.java:33-48 | throws IllegalArgumentException exactly when the operator is not COUNT |
| `Aggregation.StringAggregator.MergeTupleIntoGroup` | src/java/simpledb/StringAggregator.java:54-65 | throws NoSuchElementException exactly when the tuple has no field at the group-by index; a field of another type changes nothing; otherwise its group's count goes up by one; the total grows by one exactly when the tuple is counted |
| `Aggregation.StringAggregator.Iterator` | src/java/simpledb/StringAggregator.java:75-90 | one (key, count) row per group, each key exactly once, carrying that group's count |
| `Aggregation.MergeAll` | src/java/simpledb/Aggregate.java:115-117 | merging the child's tuples in order succeeds exactly when every tuple has the group-by field, and the total then grows by the number of tuples counted |

## Left out

- Locking.LockManager.AcquireLock: the source retries forever with a sleep between attempts. The model retries `retries` times with no clock and no other transaction acting in between. Deadlock detection is an empty stub in the source.
- `waitList` is kept as a field but is never read or written, as in the source.
- `LockManager.releaseAllLocks`, `BufferPool.discardPage` and `BufferPool.flushPages` are empty in the source. They have nothing to model.
- The stub `LockManager` class nested inside `BufferPool.java` (lines 309-433) is not modelled. As written it blocks `getPage` forever: its `locked` always returns true, so its `acquireLock` loop never ends. `Caching.BufferPool.GetPage` instead takes, as its `lock` parameter, the answer the top-level lock manager would give. The `Deadlock` value is a branch that the source's `catch (DeadlockException)` allows, but no code path produces it today: neither the stub nor the top-level `LockManager.acquireLock` throws `DeadlockException`.
- Thread safety (`synchronized`, `ConcurrentHashMap`) and interleavings are not modelled. Each operation runs alone.
- Caching.BufferPool.EvictPage: the victim is chosen at random in the source. The model lets it be any resident page, subject to the clean-first rule. A failed write-back (`IOException` turned into `DbException`) is not modelled.
- Caching.BufferPool.DeleteTuple: `markDirty` acts on the page objects the file returns. The model assumes that a returned page whose id is resident is that resident object, so it replaces the resident entry with the returned page marked dirty. Aliasing between page objects is otherwise not modelled.
- Caching.BufferPool.InsertTuple: the contract does not pin down the disk entry of a returned id that is cached at the end. If the id was evicted earlier in the same call, the disk holds whichever copy was evicted last (the copy cached before the call or an earlier returned one); otherwise it is unchanged.
- Caching.BufferPool.constructor: requires `1 <= numPages`. The source accepts any `int`; with `numPages <= 0` the first miss or first put of a new page calls `evictPage` on an empty cache, where `random.nextInt(0)` throws `IllegalArgumentException`. That failure is not modelled.
- HeapFiles.HeapFile.InsertTuple: the `Fetcher` is a pure function, so fetches have no side effects and `contents` reflects only `HeapFile`'s own writes. In the source each `getPage` of the scan can evict a dirty page of this same file and write it back (through `evictPage`, `flushPage` and `writePage`), changing the file. The "file unchanged" clauses of the failure and room-found paths hold only under that purity.
- The catalog (`Database.getCatalog()`) and the global buffer pool are not modelled. The file, the schema and the fetch function are passed in.
- File I/O is a byte sequence. `printStackTrace` and the iterator's `System.out.println` diagnostics are left out. The iterator's extra `getPage` call inside the print is left out too.
- `Math.ceil` over `double` in `numPages` is modelled as exact integer ceiling division. Java `int` overflow is not modelled. Integers are unbounded, so nothing wraps at 2^31. This covers `pgno * pageSize`, the `cnt` counters of `Insert.fetchNext` (Insert.java:94) and `Delete.fetchNext` (Delete.java:74), which `CountApplied` models, and the aggregator's `Integer` group counts (StringAggregator.java:63), which `Bump` and `Sum` model.
- The byte layout of `HeapPage`, its header bitmap and its slot iterator are not part of this model. A page is a sequence of tuples with a slot capacity. `HeapFile.insertTuple`'s empty new page takes its capacity and its encoding as parameters.
- Scan.HeapFileIterator: the pages are fixed for the life of the iterator. A `getPage` that throws inside `open`/`next` (lock failure, abort) is not modelled.
- `getTupleDesc` of the iterator and `getFile`/`getId`/`getTupleDesc` of the heap file are plain field reads. `iterator()` of the heap file is the `Scan.HeapFileIterator` constructor. The table id is a parameter rather than the hash of the file's absolute path.
- `Operator.java` (the `open` flag, `hasNext`/`next` caching of `fetchNext`) is not part of this model. The operators' `Open`/`Close` only reach their child.
- `Insert.getChildren`/`setChildren` and `Delete.getChildren`/`setChildren` are not modelled. Their code is the same as `Filter`'s, which is modelled.
- InsertOperator.Insert.FetchNext: how each `insertTuple` call ends is a fixed function of the tuple (`effect`). The model does not connect it to the buffer pool and heap file models. The calls are recorded as a ghost log instead.
- DeleteOperator.Delete.FetchNext: the same holds for `deleteTuple`.
- Aggregation.StringAggregator.Iterator: returns the rows as a sequence. The `TupleDesc` with the group-by type and the `TupleIterator` wrapper are left out. The enumeration order of the map is any order.
- The aggregate field `afield` is stored but never used, as in the source.
- `Aggregator.NO_GROUPING` is taken to be -1. `Aggregator.java`, which defines it, is not part of this model.
- The `Op` enumeration is reduced to `Count` and the other operators.
- `Aggregate.java` beyond the merge loop of `open` (`MergeAll`) is not part of this model.

=== FILE: buffer_pool.dfy ===
/** The buffer pool: a bounded cache from page id to page in front of the
    heap files, with eviction that prefers clean pages and write-back on
    flush. */
module Caching {
  import opened Common

  /** How the lock manager's acquireLock call ended, as a working lock
      manager would answer. `Deadlock` is the branch getPage's catch
      allows; no lock manager of the source raises it yet. */
  datatype LockStep = Granted | Deadlock

  /** A page with its dirty mark cleared. */
  function Clean(p: HeapPage): (c: HeapPage)
    ensures c.dirtier.None? && c.id == p.id && c.tuples == p.tuples && c.capacity == p.capacity
  {
    p.(dirtier := None)
  }

  /** A page marked dirty by `tid`. */
  function Dirtied(p: HeapPage, tid: TransactionId): (d: HeapPage)
    ensures d.dirtier == Some(tid) && d.id == p.id && d.tuples == p.tuples && d.capacity == p.capacity
  {
    p.(dirtier := Some(tid))
  }

  /** The pages of `m` whose ids are in `ks`, each with its dirty mark cleared. */
  function CleanAll(m: map<PageId, HeapPage>, ks: set<PageId>): (c: map<PageId, HeapPage>)
    ensures c.Keys == m.Keys * ks
    ensures forall k :: k in c ==> c[k] == Clean(m[k])
  {
    map k | k in m && k in ks :: Clean(m[k])
  }

  lemma CleanAllStep(m: map<PageId, HeapPage>, base: map<PageId, HeapPage>, done: set<PageId>, k: PageId)
    requires k in m
    ensures (base + CleanAll(m, done))[k := Clean(m[k])] == base + CleanAll(m, done + {k})
  {
    var lhs := (base + CleanAll(m, done))[k := Clean(m[k])];
    var rhs := base + CleanAll(m, done + {k});
    assert lhs.Keys == rhs.Keys;
    forall j | j in lhs
      ensures lhs[j] == rhs[j]
    {
    }
  }

  /** Cleaning no key changes nothing. */
  lemma CleanAllNone(m: map<PageId, HeapPage>, base: map<PageId, HeapPage>)
    ensures base + CleanAll(m, {}) == base
  {
    assert CleanAll(m, {}) == map[];
  }

  /** Cleaning every key of `m` replaces all of `m`. */
  lemma CleanAllCovers(m: map<PageId, HeapPage>)
    ensures m + CleanAll(m, m.Keys) == CleanAll(m, m.Keys)
  {
    var c := CleanAll(m, m.Keys);
    assert (m + c).Keys == c.Keys;
  }

  /** The ids of the pages in `ps`. */
  function Ids(ps: seq<HeapPage>): set<PageId> {
    set i | 0 <= i < |ps| :: ps[i].id
  }

  /** Extending a prefix of `ps` by one page adds that page's id. */
  lemma IdsExtend(ps: seq<HeapPage>, i: nat)
    requires i < |ps|
    ensures Ids(ps[..i + 1]) == Ids(ps[..i]) + {ps[i].id}
  {
    var a, b := ps[..i + 1], ps[..i];
    assert a[i] == ps[i];
    forall x | x in Ids(a) ensures x in Ids(b) + {ps[i].id} {
      var j :| 0 <= j < |a| && a[j].id == x;
      if j < i { assert b[j] == a[j]; }
    }
    forall x | x in Ids(b) + {ps[i].id} ensures x in Ids(a) {
      if x != ps[i].id {
        var j :| 0 <= j < |b| && b[j].id == x;
        assert a[j] == b[j];
      }
    }
  }

  /** The cache after marking dirty, one after another, those of `ps`
      that are resident; residency is left as it was. */
  function MarkResident(pages: map<PageId, HeapPage>, tid: TransactionId, ps: seq<HeapPage>): (m: map<PageId, HeapPage>)
    ensures m.Keys == pages.Keys
    ensures forall k :: k in pages && k !in Ids(ps) ==> m[k] == pages[k]
    ensures forall k :: k in m ==> m[k].id == k || m[k] == pages[k]
    decreases |ps|
  {
    if ps == [] then pages
    else
      var p := ps[|ps| - 1];
      var before := MarkResident(pages, tid, ps[..|ps| - 1]);
      assert Ids(ps) == Ids(ps[..|ps| - 1]) + {p.id};
      if p.id in before then before[p.id := Dirtied(p, tid)] else before
  }

  /** Marking one more page of `ps`. */
  lemma MarkResidentStep(pages: map<PageId, HeapPage>, tid: TransactionId, ps: seq<HeapPage>, i: nat)
    requires i < |ps|
    ensures var before := MarkResident(pages, tid, ps[..i]);
            MarkResident(pages, tid, ps[..i + 1])
            == if ps[i].id in before then before[ps[i].id := Dirtied(ps[i], tid)] else before
  {
    assert ps[..i + 1][..i] == ps[..i];
  }

  /** After marking, each resident page of `ps` holds the last copy of it
      in `ps`, dirtied by `tid`. */
  lemma {:induction false} MarkResidentLast(pages: map<PageId, HeapPage>, tid: TransactionId, ps: seq<HeapPage>, i: nat)
    requires i < |ps| && ps[i].id in pages
    requires forall j :: i < j < |ps| ==> ps[j].id != ps[i].id
    ensures MarkResident(pages, tid, ps)[ps[i].id] == Dirtied(ps[i], tid)
    decreases |ps|
  {
    if i < |ps| - 1 {
      var front := ps[..|ps| - 1];
      assert front[i] == ps[i];
      MarkResidentLast(pages, tid, front, i);
    }
  }

  /** Each id of `ps` with the last page of `ps` that carries it. */
  function Latest(ps: seq<HeapPage>): (m: map<PageId, HeapPage>)
    ensures |ps| > 0 ==> ps[|ps| - 1].id in m && m[ps[|ps| - 1].id] == ps[|ps| - 1]
    decreases |ps|
  {
    if ps == [] then map[]
    else Latest(ps[..|ps| - 1])[ps[|ps| - 1].id := ps[|ps| - 1]]
  }

  /** The ids with an entry are exactly the ids of `ps`. */
  lemma {:induction false} LatestKeys(ps: seq<HeapPage>)
    ensures Latest(ps).Keys == Ids(ps)
    decreases |ps|
  {
    if ps != [] {
      var n := |ps| - 1;
      LatestKeys(ps[..n]);
      IdsExtend(ps, n);
      assert ps[..n + 1] == ps;
    }
  }

  /** One more page overrides the entry of its id. */
  lemma LatestSnoc(qs: seq<HeapPage>, p: HeapPage)
    ensures Latest(qs + [p]) == Latest(qs)[p.id := p]
  {
    assert (qs + [p])[..|qs|] == qs;
  }

  /** The entry of an id is its last occurrence in `ps`. */
  lemma {:induction false} LatestIsLast(ps: seq<HeapPage>, i: nat)
    requires i < |ps|
    requires forall j :: i < j < |ps| ==> ps[j].id != ps[i].id
    ensures ps[i].id in Latest(ps) && Latest(ps)[ps[i].id] == ps[i]
    decreases |ps|
  {
    if i < |ps| - 1 {
      var front := ps[..|ps| - 1];
      assert front[i] == ps[i];
      LatestIsLast(front, i);
    }
  }

  /** What one putDirty step does to the cache `p0` and disk `d0`: when `p`
      is not resident and the cache is full, the page `ev` is written back
      and dropped; then `p`, dirtied by `tid`, is cached. */
  ghost predicate PutEffect(p0: map<PageId, HeapPage>, d0: map<PageId, HeapPage>, tid: TransactionId, p: HeapPage,
                            ev: Option<PageId>, numPages: int, p1: map<PageId, HeapPage>, d1: map<PageId, HeapPage>)
  {
    && (ev.Some? ==> && p.id !in p0 && |p0| >= numPages && ev.value in p0
                     && d1 == d0[ev.value := Clean(p0[ev.value])])
    && (ev.None? ==> d1 == d0)
    && p1 == (if ev.Some? then p0 - {ev.value} else p0)[p.id := Dirtied(p, tid)]
  }

  /** Only pages of `ps` (whose last copies `last` holds) entered the
      cache, and cached pages not in `ps` kept their contents. */
  ghost predicate OnlyReturnedAdded(orig: map<PageId, HeapPage>, last: map<PageId, HeapPage>, pages: map<PageId, HeapPage>) {
    && pages.Keys <= orig.Keys + last.Keys
    && (forall k :: k in pages && k !in last ==> pages[k] == orig[k])
  }

  /** Each returned id is cached with its last returned page, dirtied, or
      was evicted after it, and then the disk holds that page, clean. */
  ghost predicate LatestKept(tid: TransactionId, last: map<PageId, HeapPage>, pages: map<PageId, HeapPage>, disk: map<PageId, HeapPage>) {
    forall k :: k in last ==>
      if k in pages then pages[k] == Dirtied(last[k], tid)
      else k in disk && disk[k] == Clean(last[k])
  }

  /** A page not returned that left the cache was written back. */
  ghost predicate EvictedWrittenBack(orig: map<PageId, HeapPage>, last: map<PageId, HeapPage>, pages: map<PageId, HeapPage>, disk: map<PageId, HeapPage>) {
    forall k :: k in orig && k !in pages && k !in last ==> k in disk && disk[k] == Clean(orig[k])
  }

  /** The disk lost nothing, and the entry of a page that was never evicted
      is as it was. */
  ghost predicate DiskFramed(orig: map<PageId, HeapPage>, origDisk: map<PageId, HeapPage>, last: map<PageId, HeapPage>,
                             pages: map<PageId, HeapPage>, disk: map<PageId, HeapPage>) {
    && origDisk.Keys <= disk.Keys
    && (forall k :: k in disk && k !in last && (k !in orig || k in pages) ==> k in origDisk && disk[k] == origDisk[k])
  }

  /** When the old pages and the returned ones fit in the cache together,
      nothing was evicted. */
  ghost predicate NoNeedlessEviction(orig: map<PageId, HeapPage>, last: map<PageId, HeapPage>, numPages: int, pages: map<PageId, HeapPage>) {
    |orig.Keys + last.Keys| <= numPages ==> pages.Keys == orig.Keys + last.Keys
  }

  /** Evictions happen one per new page, and only into a full cache: so
      either every old and returned id is still cached, or the cache is
      full. */
  ghost predicate FullOrAllKept(orig: map<PageId, HeapPage>, last: map<PageId, HeapPage>, numPages: int, pages: map<PageId, HeapPage>) {
    pages.Keys == orig.Keys + last.Keys || |pages| == numPages
  }

  /** The cache `pages` and disk `disk` after putting, into a pool that
      held `orig` over `origDisk`, pages whose last copies per id are
      `last`. */
  ghost predicate Settled(orig: map<PageId, HeapPage>, origDisk: map<PageId, HeapPage>, tid: TransactionId,
                          last: map<PageId, HeapPage>, numPages: int, pages: map<PageId, HeapPage>, disk: map<PageId, HeapPage>)
  {
    && OnlyReturnedAdded(orig, last, pages)
    && LatestKept(tid, last, pages, disk)
    && EvictedWrittenBack(orig, last, pages, disk)
    && DiskFramed(orig, origDisk, last, pages, disk)
    && NoNeedlessEviction(orig, last, numPages, pages)
    && FullOrAllKept(orig, last, numPages, pages)
  }

  /** The cache `pages` and disk `disk` after insertTuple has put the pages
      `ps` of transaction `tid` into a pool that held `orig` over
      `origDisk`: the last of `ps` is cached, and the pool is settled with
      the last copy of each id of `ps`. */
  ghost predicate Reconciled(orig: map<PageId, HeapPage>, origDisk: map<PageId, HeapPage>, tid: TransactionId,
                             ps: seq<HeapPage>, numPages: int, pages: map<PageId, HeapPage>, disk: map<PageId, HeapPage>)
  {
    && (|ps| > 0 ==> ps[|ps| - 1].id in pages)
    && Settled(orig, origDisk, tid, Latest(ps), numPages, pages, disk)
  }

  /** Nothing is put yet. */
  lemma SettledStart(orig: map<PageId, HeapPage>, disk: map<PageId, HeapPage>, tid: TransactionId, numPages: int)
    ensures Settled(orig, disk, tid, map[], numPages, orig, disk)
  {
    var none: map<PageId, HeapPage> := map[];
    assert orig.Keys + none.Keys == orig.Keys;
  }

  lemma OnlyReturnedAddedStep(orig: map<PageId, HeapPage>, last: map<PageId, HeapPage>, tid: TransactionId, p: HeapPage,
                              ev: Option<PageId>, numPages: int, p0: map<PageId, HeapPage>, d0: map<PageId, HeapPage>,
                              p1: map<PageId, HeapPage>, d1: map<PageId, HeapPage>)
    requires OnlyReturnedAdded(orig, last, p0) && PutEffect(p0, d0, tid, p, ev, numPages, p1, d1)
    ensures OnlyReturnedAdded(orig, last[p.id := p], p1)
  {
  }

  lemma LatestKeptStep(last: map<PageId, HeapPage>, tid: TransactionId, p: HeapPage,
                       ev: Option<PageId>, numPages: int, p0: map<PageId, HeapPage>, d0: map<PageId, HeapPage>,
                       p1: map<PageId, HeapPage>, d1: map<PageId, HeapPage>)
    requires LatestKept(tid, last, p0, d0) && PutEffect(p0, d0, tid, p, ev, numPages, p1, d1)
    ensures LatestKept(tid, last[p.id := p], p1, d1)
  {
    var last' := last[p.id := p];
    forall k | k in last'
      ensures if k in p1 then p1[k] == Dirtied(last'[k], tid) else k in d1 && d1[k] == Clean(last'[k])
    {
      if k != p.id && ev.Some? && k == ev.value {
        assert p0[k] == Dirtied(last[k], tid);
      }
    }
  }

  lemma EvictedWrittenBackStep(orig: map<PageId, HeapPage>, last: map<PageId, HeapPage>, tid: TransactionId, p: HeapPage,
                               ev: Option<PageId>, numPages: int, p0: map<PageId, HeapPage>, d0: map<PageId, HeapPage>,
                               p1: map<PageId, HeapPage>, d1: map<PageId, HeapPage>)
    requires OnlyReturnedAdded(orig, last, p0) && EvictedWrittenBack(orig, last, p0, d0)
    requires PutEffect(p0, d0, tid, p, ev, numPages, p1, d1)
    ensures EvictedWrittenBack(orig, last[p.id := p], p1, d1)
  {
  }

  lemma DiskFramedStep(orig: map<PageId, HeapPage>, origDisk: map<PageId, HeapPage>, last: map<PageId, HeapPage>,
                       tid: TransactionId, p: HeapPage, ev: Option<PageId>, numPages: int,
                       p0: map<PageId, HeapPage>, d0: map<PageId, HeapPage>, p1: map<PageId, HeapPage>, d1: map<PageId, HeapPage>)
    requires OnlyReturnedAdded(orig, last, p0) && DiskFramed(orig, origDisk, last, p0, d0)
    requires PutEffect(p0, d0, tid, p, ev, numPages, p1, d1)
    ensures DiskFramed(orig, origDisk, last[p.id := p], p1, d1)
  {
  }

  /** Putting a page evicts only when the cache is full and the page is
      new, so a run that fits never evicts. */
  lemma NoNeedlessEvictionStep(orig: map<PageId, HeapPage>, last: map<PageId, HeapPage>, p: HeapPage,
                               evicts: bool, numPages: int, p0: map<PageId, HeapPage>, p1: map<PageId, HeapPage>)
    requires NoNeedlessEviction(orig, last, numPages, p0)
    requires evicts ==> p.id !in p0 && |p0| >= numPages
    requires !evicts ==> p1.Keys == p0.Keys + {p.id}
    ensures NoNeedlessEviction(orig, last[p.id := p], numPages, p1)
  {
    assert orig.Keys + last[p.id := p].Keys == (orig.Keys + last.Keys) + {p.id};
    FitStep(orig.Keys + last.Keys, p.id, p0.Keys, evicts, numPages, p1.Keys);
  }

  /** The ids cached after one put. */
  lemma PutEffectKeys(p0: map<PageId, HeapPage>, d0: map<PageId, HeapPage>, tid: TransactionId, p: HeapPage,
                      ev: Option<PageId>, numPages: int, p1: map<PageId, HeapPage>, d1: map<PageId, HeapPage>)
    requires PutEffect(p0, d0, tid, p, ev, numPages, p1, d1)
    ensures ev.None? ==> p1.Keys == p0.Keys + {p.id}
    ensures ev.Some? ==> p1.Keys == (p0.Keys - {ev.value}) + {p.id}
  {
  }

  /** A put keeps the cache full, or keeps every old and returned id. */
  lemma FullOrAllKeptStep(orig: map<PageId, HeapPage>, last: map<PageId, HeapPage>, p: HeapPage,
                          ev: Option<PageId>, numPages: int, p0: map<PageId, HeapPage>, p1: map<PageId, HeapPage>)
    requires FullOrAllKept(orig, last, numPages, p0)
    requires |p0| <= numPages && |p1| <= numPages
    requires ev.Some? ==> p.id !in p0 && |p0| >= numPages && ev.value in p0 && p1.Keys == (p0.Keys - {ev.value}) + {p.id}
    requires ev.None? ==> p1.Keys == p0.Keys + {p.id}
    ensures FullOrAllKept(orig, last[p.id := p], numPages, p1)
  {
    assert orig.Keys + last[p.id := p].Keys == (orig.Keys + last.Keys) + {p.id};
    assert |p0| == |p0.Keys| && |p1| == |p1.Keys|;
    FullStep(orig.Keys + last.Keys, p.id, p0.Keys, ev, numPages, p1.Keys);
  }

  /** The cache-size arithmetic of one put: the ids wanted so far,
      `wanted`, were all kept when they fitted, and `x` joins them. */
  lemma FitStep(wanted: set<PageId>, x: PageId, k0: set<PageId>, evicts: bool, numPages: int, k1: set<PageId>)
    requires |wanted| <= numPages ==> k0 == wanted
    requires evicts ==> x !in k0 && |k0| >= numPages
    requires !evicts ==> k1 == k0 + {x}
    ensures |wanted + {x}| <= numPages ==> k1 == wanted + {x}
  {
    if |wanted + {x}| <= numPages {
      if x in wanted {
        assert wanted + {x} == wanted;
      } else {
        AddFresh(wanted, x);
      }
    }
  }

  /** The cache-size arithmetic of one put, for the full-or-all-kept
      clause: an eviction swaps one id of a full cache for `x`. */
  lemma FullStep(wanted: set<PageId>, x: PageId, k0: set<PageId>, evicted: Option<PageId>, numPages: int, k1: set<PageId>)
    requires k0 == wanted || |k0| == numPages
    requires |k0| <= numPages && |k1| <= numPages
    requires evicted.Some? ==> x !in k0 && |k0| >= numPages && evicted.value in k0 && k1 == (k0 - {evicted.value}) + {x}
    requires evicted.None? ==> k1 == k0 + {x}
    ensures k1 == wanted + {x} || |k1| == numPages
  {
    if evicted.Some? {
      var rest := k0 - {evicted.value};
      assert |rest| == |k0| - 1;
      AddFresh(rest, x);
    } else if k0 != wanted {
      if x !in k0 {
        AddFresh(k0, x);
        assert false;
      }
      assert k1 == k0;
    }
  }

  /** Adding an absent element grows a set by one. */
  lemma AddFresh(s: set<PageId>, x: PageId)
    requires x !in s
    ensures |s + {x}| == |s| + 1
  {
    assert s * {x} == {};
  }

  /** One putDirty step keeps the pool settled with the page's copy as
      the last one of its id. */
  lemma SettledStep(orig: map<PageId, HeapPage>, origDisk: map<PageId, HeapPage>, tid: TransactionId,
                    last: map<PageId, HeapPage>, p: HeapPage, numPages: int, ev: Option<PageId>,
                    p0: map<PageId, HeapPage>, d0: map<PageId, HeapPage>, p1: map<PageId, HeapPage>, d1: map<PageId, HeapPage>)
    requires Settled(orig, origDisk, tid, last, numPages, p0, d0)
    requires PutEffect(p0, d0, tid, p, ev, numPages, p1, d1)
    requires |p0| <= numPages && |p1| <= numPages
    ensures Settled(orig, origDisk, tid, last[p.id := p], numPages, p1, d1)
  {
    OnlyReturnedAddedStep(orig, last, tid, p, ev, numPages, p0, d0, p1, d1);
    LatestKeptStep(last, tid, p, ev, numPages, p0, d0, p1, d1);
    EvictedWrittenBackStep(orig, last, tid, p, ev, numPages, p0, d0, p1, d1);
    DiskFramedStep(orig, origDisk, last, tid, p, ev, numPages, p0, d0, p1, d1);
    PutEffectKeys(p0, d0, tid, p, ev, numPages, p1, d1);
    NoNeedlessEvictionStep(orig, last, p, ev.Some?, numPages, p0, p1);
    FullOrAllKeptStep(orig, last, p, ev, numPages, p0, p1);
  }

  /** Extending a run by one page updates its last copies by that page. */
  lemma LatestStep(ps: seq<HeapPage>, i: nat)
    requires i < |ps|
    ensures Latest(ps[..i + 1]) == Latest(ps[..i])[ps[i].id := ps[i]]
  {
    assert ps[..i + 1] == ps[..i] + [ps[i]];
    LatestSnoc(ps[..i], ps[i]);
  }

  class BufferPool {
    const numPages: int
    var pages: map<PageId, HeapPage>
    /** The heap files' pages, as readPage returns them and writePage stores them. */
    var disk: map<PageId, HeapPage>

    /** The cache holds at most numPages pages, and every page, cached or
        on disk, sits under its own id. */
    ghost predicate Valid()
      reads this
    {
      1 <= numPages && |pages| <= numPages && Entries()
    }

    /** Every page sits under its own id, and the files hold only clean pages. */
    ghost predicate Entries()
      reads this
    {
      && (forall k :: k in pages ==> pages[k].id == k)
      && (forall k :: k in disk ==> disk[k].id == k && disk[k].dirtier.None?)
    }

    constructor (numPages: int, disk: map<PageId, HeapPage>)
      requires 1 <= numPages
      requires forall k :: k in disk ==> disk[k].id == k && disk[k].dirtier.None?
      ensures Valid()
      ensures this.numPages == numPages && pages == map[] && this.disk == disk
    {
      this.numPages := numPages;
      pages := map[];
      this.disk := disk;
    }

    /** flushPage: writes a resident page to its file and clears its dirty
        mark; a page that is not resident needs no flush. */
    method FlushPage(pid: PageId)
      requires Entries()
      modifies this
      ensures Entries()
      ensures pid !in old(pages) ==> pages == old(pages) && disk == old(disk)
      ensures pid in old(pages) ==>
                && pages == old(pages)[pid := Clean(old(pages)[pid])]
                && disk == old(disk)[pid := Clean(old(pages)[pid])]
    {
      if pid !in pages {
        return;
      }
      var p := pages[pid];
      disk := disk[pid := Clean(p)];
      pages := pages[pid := Clean(p)];
    }

    /** flushAllPages: every resident page is written back and left clean. */
    method FlushAllPages()
      requires Entries()
      modifies this
      ensures Entries()
      ensures pages == CleanAll(old(pages), old(pages).Keys)
      ensures disk == old(disk) + CleanAll(old(pages), old(pages).Keys)
    {
      ghost var orig, origDisk := pages, disk;
      var keys := pages.Keys;
      ghost var done: set<PageId> := {};
      CleanAllNone(orig, orig);
      CleanAllNone(orig, origDisk);
      while keys != {}
        invariant Entries()
        invariant keys <= orig.Keys && done == orig.Keys - keys
        invariant pages == orig + CleanAll(orig, done)
        invariant disk == origDisk + CleanAll(orig, done)
        decreases keys
      {
        var k :| k in keys;
        FlushStep(k, orig, origDisk, done);
        keys := keys - {k};
        done := done + {k};
      }
      assert done == orig.Keys;
      CleanAllCovers(orig);
    }

    /** One iteration of flushAllPages's loop: flushing `k` extends the set
        of written-back pages by `k`. */
    method FlushStep(k: PageId, ghost orig: map<PageId, HeapPage>, ghost origDisk: map<PageId, HeapPage>, ghost done: set<PageId>)
      requires Entries() && k in orig && k !in done
      requires pages == orig + CleanAll(orig, done)
      requires disk == origDisk + CleanAll(orig, done)
      modifies this
      ensures Entries()
      ensures pages == orig + CleanAll(orig, done + {k})
      ensures disk == origDisk + CleanAll(orig, done + {k})
    {
      CleanAllStep(orig, orig, done, k);
      CleanAllStep(orig, origDisk, done, k);
      assert k in pages && pages[k] == orig[k];
      FlushPage(k);
    }

    /** evictPage: picks a resident page at random; if it is dirty, the
        first clean page found replaces it as victim. The victim is flushed,
        then removed. A dirty page is evicted only when every resident page
        is dirty. */
    method EvictPage() returns (ghost victim: PageId)
      requires Valid() && |pages| > 0
      modifies this
      ensures Valid()
      ensures victim in old(pages)
      ensures pages == old(pages) - {victim}
      ensures disk == old(disk)[victim := Clean(old(pages)[victim])]
      ensures old(pages)[victim].dirtier.Some? ==> forall k :: k in old(pages) ==> old(pages)[k].dirtier.Some?
    {
      var pid :| pid in pages;
      if pages[pid].dirtier.Some? {
        var rest := pages.Keys;
        while rest != {}
          invariant rest <= pages.Keys
          invariant pid in pages
          invariant pages[pid].dirtier.Some? ==> forall k :: k in pages && k !in rest ==> pages[k].dirtier.Some?
          decreases rest
        {
          var pg :| pg in rest;
          if pages[pg].dirtier.None? {
            pid := pg;
            break;
          }
          rest := rest - {pg};
        }
      }
      FlushPage(pid);
      pages := pages - {pid};
      victim := pid;
    }

    /** getPage: after the lock step, a resident page is returned as is; on a
        miss a full cache first evicts one page, then the page is read from
        its file and cached. A page the file cannot produce (readPage returns
        null) makes the cache insertion fail after the eviction. */
    method GetPage(tid: TransactionId, pid: PageId, perm: Perm, lock: LockStep)
      returns (r: Result<HeapPage>, ghost evicted: Option<PageId>)
      requires Valid()
      modifies this
      ensures Valid()
      ensures lock == Deadlock ==> r == Err(TransactionAborted) && pages == old(pages) && disk == old(disk)
      ensures lock == Granted && pid in old(pages) ==> r == Ok(old(pages)[pid]) && pages == old(pages) && disk == old(disk)
      ensures lock == Granted && pid !in old(pages) ==>
                && (evicted.Some? <==> |old(pages)| >= numPages)
                && (evicted.None? ==> disk == old(disk))
                && (evicted.Some? ==>
                      && evicted.value in old(pages)
                      && disk == old(disk)[evicted.value := Clean(old(pages)[evicted.value])])
                && var kept := if evicted.Some? then old(pages) - {evicted.value} else old(pages);
                && (pid in old(disk) ==> r == Ok(old(disk)[pid]) && pages == kept[pid := old(disk)[pid]])
                && (pid !in old(disk) ==> r == Err(NullPointer) && pages == kept)
    {
      evicted := None;
      if lock == Deadlock {
        return Err(TransactionAborted), evicted;
      }
      if pid in pages {
        return Ok(pages[pid]), evicted;
      }
      if |pages| >= numPages {
        var v := EvictPage();
        evicted := Some(v);
      }
      if pid !in disk {
        return Err(NullPointer), evicted;
      }
      var p := disk[pid];
      pages := pages[pid := p];
      r := Ok(p);
    }

    /** One step of insertTuple's reconcile loop: `p` is marked dirty by
        `tid` and put in the cache, evicting one page first when `p` is not
        resident and the cache is full. */
    method PutDirty(tid: TransactionId, p: HeapPage) returns (ghost evicted: Option<PageId>)
      requires Valid()
      modifies this
      ensures Valid()
      ensures p.id in pages && pages[p.id] == Dirtied(p, tid)
      ensures p.id in old(pages) ==> evicted.None?
      ensures evicted.Some? ==> |old(pages)| >= numPages && evicted.value in old(pages) && evicted.value != p.id
      ensures var kept := if evicted.Some? then old(pages) - {evicted.value} else old(pages);
              pages == kept[p.id := Dirtied(p, tid)]
      ensures evicted.None? ==> disk == old(disk)
      ensures evicted.Some? ==> disk == old(disk)[evicted.value := Clean(old(pages)[evicted.value])]
    {
      evicted := None;
      var d := Dirtied(p, tid);
      if p.id in pages {
        pages := pages[p.id := d];
      } else {
        if |pages| >= numPages {
          var v := EvictPage();
          evicted := Some(v);
        }
        pages := pages[p.id := d];
      }
    }

    /** insertTuple: every page the file returns is marked dirty by `tid`
        and put in the cache, in order, evicting one page first for a page
        that is not resident when the cache is full. Each returned id ends
        up cached with its last returned page, or, if that was evicted
        later, on disk as that page made clean; pages not returned keep
        their contents; a page that left the cache was written back first;
        the disk changes only by those write-backs; nothing is evicted
        when the old pages and the returned ones fit in the cache, and
        otherwise the cache ends full. */
    method InsertTuple(tid: TransactionId, dirtypages: seq<HeapPage>)
      requires Valid()
      modifies this
      ensures Valid()
      ensures |dirtypages| > 0 ==>
                var last := dirtypages[|dirtypages| - 1];
                last.id in pages && pages[last.id] == Dirtied(last, tid)
      ensures Reconciled(old(pages), old(disk), tid, dirtypages, numPages, pages, disk)
      ensures Latest(dirtypages).Keys == Ids(dirtypages)
    {
      ghost var last: map<PageId, HeapPage> := map[];
      SettledStart(pages, disk, tid, numPages);
      assert Latest(dirtypages[..0]) == last by { assert dirtypages[..0] == []; }
      for i := 0 to |dirtypages|
        invariant Valid()
        invariant last == Latest(dirtypages[..i])
        invariant Settled(old(pages), old(disk), tid, last, numPages, pages, disk)
        invariant 0 < i ==> dirtypages[i - 1].id in pages
      {
        PutDirtyStep(tid, dirtypages[i], last, old(pages), old(disk));
        LatestStep(dirtypages, i);
        last := last[dirtypages[i].id := dirtypages[i]];
      }
      assert dirtypages[..|dirtypages|] == dirtypages;
      LatestKeys(dirtypages);
    }

    /** One iteration of insertTuple's reconcile loop: the pool stays
        settled with `p` as the last copy of its id. */
    method PutDirtyStep(tid: TransactionId, p: HeapPage, ghost last: map<PageId, HeapPage>,
                        ghost orig: map<PageId, HeapPage>, ghost origDisk: map<PageId, HeapPage>)
      requires Valid() && Settled(orig, origDisk, tid, last, numPages, pages, disk)
      modifies this
      ensures Valid() && p.id in pages
      ensures Settled(orig, origDisk, tid, last[p.id := p], numPages, pages, disk)
    {
      ghost var p0, d0 := pages, disk;
      ghost var ev := PutDirty(tid, p);
      SettledStep(orig, origDisk, tid, last, p, numPages, ev, p0, d0, pages, disk);
    }

    /** deleteTuple: the pages the file returns are marked dirty by `tid`;
        the cache keeps exactly the same resident page ids. */
    method DeleteTuple(tid: TransactionId, dirtypages: seq<HeapPage>)
      requires Valid()
      modifies this
      ensures Valid()
      ensures disk == old(disk)
      ensures pages == MarkResident(old(pages), tid, dirtypages)
      ensures pages.Keys == old(pages).Keys
    {
      for i := 0 to |dirtypages|
        invariant disk == old(disk)
        invariant pages == MarkResident(old(pages), tid, dirtypages[..i])
      {
        var p := dirtypages[i];
        MarkResidentStep(old(pages), tid, dirtypages, i);
        if p.id in pages {
          pages := pages[p.id := Dirtied(p, tid)];
        }
      }
      assert dirtypages[..|dirtypages|] == dirtypages;
      assert |pages| == |pages.Keys| == |old(pages).Keys| == |old(pages)|;
    }
  }
}

=== FILE: common.dfy ===
/** Value types shared by the storage layer and the operators: identifiers,
    permissions, fields and tuples, and the in-memory heap page. */
module Common {

  datatype Option<T> = None | Some(value: T)

  /** The exceptions the modelled code raises or lets escape. */
  datatype Error =
    | DbException
    | TransactionAborted
    | NoSuchElement
    | IllegalArgument
    | NullPointer
    | IndexOutOfBounds

  datatype Result<T> = Ok(value: T) | Err(error: Error)

  datatype Outcome = Pass | Fail(error: Error)

  /** An opaque transaction token; only equality matters. */
  datatype TransactionId = TransactionId(id: int)

  /** A heap page identifier: the owning table and the page number. */
  datatype PageId = HeapPageId(tableId: int, pageNumber: int)

  /** READ_ONLY is a shared lock, READ_WRITE an exclusive one. */
  datatype Perm = ReadOnly | ReadWrite

  datatype Type = IntType | StringType

  datatype Field = IntField(i: int) | StringField(s: string)

  function TypeOf(f: Field): Type {
    match f
    case IntField(_) => IntType
    case StringField(_) => StringType
  }

  type TupleDesc = seq<Type>

  /** The type of each field of `fs`, in order. */
  function TypesOf(fs: seq<Field>): (d: TupleDesc)
    ensures |d| == |fs|
    ensures forall i :: 0 <= i < |fs| ==> d[i] == TypeOf(fs[i])
  {
    if fs == [] then [] else TypesOf(fs[..|fs| - 1]) + [TypeOf(fs[|fs| - 1])]
  }

  datatype RecordId = RecordId(pageId: PageId, tupleNo: int)

  /** A tuple: its fields and, once stored, the record id of its slot. */
  datatype Tuple = Tuple(fields: seq<Field>, recordId: Option<RecordId>) {
    /** The schema of the tuple: the type of each field. */
    function Desc(): TupleDesc {
      TypesOf(fields)
    }
  }

  /** The one-field schema of the count that Insert and Delete return. */
  const CountDesc: TupleDesc := [IntType]

  /** An in-memory heap page: its tuples, its slot capacity and the
      transaction that dirtied it (None when clean). The page's byte
      layout and slot bitmap are abstracted away. */
  datatype HeapPage = HeapPage(id: PageId, tuples: seq<Tuple>, capacity: nat, dirtier: Option<TransactionId>) {

    function NumEmptySlots(): (n: nat)
      ensures |tuples| <= capacity ==> n + |tuples| == capacity
      ensures |tuples| >= capacity ==> n == 0
    {
      if |tuples| <= capacity then capacity - |tuples| else 0
    }

    /** Stores `t` in a free slot, or fails with DbException when the page is full. */
    function InsertTuple(t: Tuple): (r: Result<HeapPage>)
      ensures r.Ok? <==> NumEmptySlots() > 0
      ensures r.Err? ==> r.error == DbException
      ensures r.Ok? ==> r.value == this.(tuples := tuples + [t])
    {
      if NumEmptySlots() > 0 then Ok(this.(tuples := tuples + [t])) else Err(DbException)
    }

    /** Clears the slot holding `t`, or fails with DbException when `t` is not on the page. */
    function DeleteTuple(t: Tuple): (r: Result<HeapPage>)
      ensures r.Ok? <==> t in tuples
      ensures r.Err? ==> r.error == DbException
      ensures r.Ok? ==> r.value.id == id && |r.value.tuples| == |tuples| - 1
      ensures r.Ok? ==> multiset(r.value.tuples) == multiset(tuples) - multiset{t}
    {
      if t in tuples then Ok(this.(tuples := RemoveFirst(tuples, t))) else Err(DbException)
    }
  }

  /** `s` without the first occurrence of `x`. */
  function RemoveFirst<T(==)>(s: seq<T>, x: T): (r: seq<T>)
    requires x in s
    ensures |r| == |s| - 1
    ensures multiset(r) == multiset(s) - multiset{x}
  {
    assert s == [s[0]] + s[1..];
    if s[0] == x then s[1..]
    else [s[0]] + RemoveFirst(s[1..], x)
  }
}

=== FILE: delete.dfy ===
/** The Delete operator: on its first fetchNext it hands every tuple its
    child still holds to the buffer pool's deleteTuple, then returns a
    one-field tuple with the number of deletes that did not fail with an
    IOException; every later fetchNext returns null. */
module DeleteOperator {
  import opened Common
  import opened Streams

  /** One call of the buffer pool's deleteTuple(tid, t). */
  datatype DeleteCall = DeleteCall(tid: TransactionId, t: Tuple)

  /** The deleteTuple calls that deleting `ts` in order makes. */
  function Requests(tid: TransactionId, ts: seq<Tuple>): (r: seq<DeleteCall>)
    ensures |r| == |ts|
  {
    if ts == [] then [] else Requests(tid, ts[..|ts| - 1]) + [DeleteCall(tid, ts[|ts| - 1])]
  }

  /** The i-th logged call deletes the i-th tuple, on behalf of `tid`. */
  lemma {:induction false} RequestsAt(tid: TransactionId, ts: seq<Tuple>, i: nat)
    requires i < |ts|
    ensures Requests(tid, ts)[i] == DeleteCall(tid, ts[i])
  {
    if i < |ts| - 1 {
      RequestsAt(tid, ts[..|ts| - 1], i);
    }
  }

  /** Deleting one more tuple logs one more call. */
  lemma RequestsStep(tid: TransactionId, ts: seq<Tuple>, t: Tuple)
    ensures Requests(tid, ts + [t]) == Requests(tid, ts) + [DeleteCall(tid, t)]
  {
    assert (ts + [t])[..|ts|] == ts;
  }

  class Delete {
    const tid: TransactionId
    const child: TupleStream
    var isDeleted: bool
    /** Every deleteTuple call made so far, in order. */
    ghost var calls: seq<DeleteCall>

    constructor (tid: TransactionId, child: TupleStream)
      ensures this.tid == tid && this.child == child
      ensures !isDeleted && calls == []
    {
      this.tid := tid;
      this.child := child;
      isDeleted := false;
      calls := [];
    }

    /** The output schema: one INT field. */
    function GetTupleDesc(): (d: TupleDesc)
      ensures d == [IntType]
    {
      CountDesc
    }

    method Open()
      modifies child
      ensures child.Valid() && child.Remaining() == child.tuples
    {
      child.Open();
    }

    method Close()
      modifies child
      ensures child.Valid() && child.Remaining() == []
    {
      child.Close();
    }

    /** rewind: the child is closed and reopened; whether the deletes were
        done is left as it was. */
    method Rewind()
      modifies child
      ensures child.Valid() && child.Remaining() == child.tuples
      ensures isDeleted == old(isDeleted)
    {
      child.Close();
      child.Open();
    }

    /** fetchNext, where `effect` says how the buffer pool's deleteTuple
        ends for each tuple. */
    method FetchNext(effect: Tuple -> Effect) returns (r: Result<Option<Tuple>>)
      requires child.Valid()
      modifies this, child
      ensures child.Valid()
      ensures old(isDeleted) ==> r == Ok(None) && unchanged(this) && unchanged(child)
      ensures !old(isDeleted) ==>
                var ts := old(child.Remaining());
                var n := Consumed(effect, ts);
                && child.Remaining() == ts[n..]
                && calls == old(calls) + Requests(tid, ts[..n])
                && match FirstThrown(effect, ts)
                   case None => r == Ok(Some(CountTuple(CountApplied(effect, ts)))) && isDeleted
                   case Some(i) => r == Err(effect(ts[i]).error) && !isDeleted
    {
      if isDeleted {
        return Ok(None);
      }
      var cnt, thrown := ConsumeChild(effect);
      if thrown.Some? {
        return Err(thrown.value);
      }
      isDeleted := true;
      r := Ok(Some(CountTuple(cnt)));
    }

    /** One turn of fetchNext's loop: the child's next tuple, `ts[k]`, goes
        to deleteTuple, and the call is logged. */
    method DeleteNext(effect: Tuple -> Effect, ghost ts: seq<Tuple>, ghost k: nat, ghost base: seq<DeleteCall>)
      returns (e: Effect)
      requires child.Valid() && k < |ts| && child.Remaining() == ts[k..]
      requires calls == base + Requests(tid, ts[..k])
      modifies this, child
      ensures child.Valid() && child.Remaining() == ts[k + 1..] && isDeleted == old(isDeleted)
      ensures e == effect(ts[k])
      ensures calls == base + Requests(tid, ts[..k + 1])
    {
      assert ts[k..][1..] == ts[k + 1..];
      assert ts[..k + 1] == ts[..k] + [ts[k]];
      var t := child.Next();
      e := effect(t);
      RequestsStep(tid, ts[..k], t);
      ghost var logged := Requests(tid, ts[..k]);
      calls := calls + [DeleteCall(tid, t)];
      assert calls == base + (logged + [DeleteCall(tid, t)]);
    }

    /** fetchNext's loop: reads the child until it is exhausted or a
        deleteTuple call throws, logging each call and counting those
        that took effect. */
    method ConsumeChild(effect: Tuple -> Effect) returns (cnt: nat, thrown: Option<Error>)
      requires child.Valid()
      modifies this, child
      ensures child.Valid() && isDeleted == old(isDeleted)
      ensures var ts := old(child.Remaining());
              var n := Consumed(effect, ts);
              && child.Remaining() == ts[n..]
              && calls == old(calls) + Requests(tid, ts[..n])
              && match FirstThrown(effect, ts)
                 case None => thrown.None? && cnt == CountApplied(effect, ts)
                 case Some(i) => thrown == Some(effect(ts[i]).error)
    {
      ghost var ts := child.Remaining();
      ghost var k := 0;
      cnt, thrown := 0, None;
      while child.HasNext()
        invariant child.Valid() && isDeleted == old(isDeleted)
        invariant k <= |ts| && child.Remaining() == ts[k..]
        invariant FirstThrown(effect, ts[..k]).None? && cnt == CountApplied(effect, ts[..k])
        invariant calls == old(calls) + Requests(tid, ts[..k])
        decreases |ts| - k
      {
        var e := DeleteNext(effect, ts, k, old(calls));
        RunStep(effect, ts, k);
        CountStep(effect, ts, k);
        k := k + 1;
        if e.Thrown? {
          assert Consumed(effect, ts) == k;
          return cnt, Some(e.error);
        }
        cnt := cnt + if e == Applied then 1 else 0;
      }
      assert ts[..k] == ts;
      assert Consumed(effect, ts) == k;
    }
  }
}

=== FILE: filter.dfy ===
/** The Filter operator, a relational select: fetchNext reads the child
    until a tuple satisfies the predicate and returns it, or returns null
    once the child is used up. */
module FilterOperator {
  import opened Common
  import opened Streams

  /** The tuples of `ts` that satisfy the predicate, in order. */
  function Select(pred: Tuple -> bool, ts: seq<Tuple>): (out: seq<Tuple>)
    ensures |out| <= |ts|
  {
    if ts == [] then []
    else (if pred(ts[0]) then [ts[0]] else []) + Select(pred, ts[1..])
  }

  /** Unfolding Select at position `k` of a suffix. */
  lemma SelectAt(pred: Tuple -> bool, ts: seq<Tuple>, k: nat)
    requires k < |ts|
    ensures Select(pred, ts[k..]) == (if pred(ts[k]) then [ts[k]] else []) + Select(pred, ts[k + 1..])
  {
    assert ts[k..][1..] == ts[k + 1..];
  }

  /** A tuple is selected iff it occurs in the input and satisfies the
      predicate. */
  lemma {:induction false} SelectMember(pred: Tuple -> bool, ts: seq<Tuple>, t: Tuple)
    ensures t in Select(pred, ts) <==> t in ts && pred(t)
  {
    if ts != [] {
      SelectMember(pred, ts[1..], t);
      assert ts == [ts[0]] + ts[1..];
    }
  }

  /** Everything is selected exactly when every tuple satisfies the
      predicate, and nothing exactly when none does. */
  lemma {:induction false} SelectExtremes(pred: Tuple -> bool, ts: seq<Tuple>)
    ensures |Select(pred, ts)| == |ts| <==> forall i :: 0 <= i < |ts| ==> pred(ts[i])
    ensures Select(pred, ts) == [] <==> forall i :: 0 <= i < |ts| ==> !pred(ts[i])
  {
    if ts != [] {
      SelectExtremes(pred, ts[1..]);
      assert forall i :: 1 <= i < |ts| ==> ts[i] == ts[1..][i - 1];
    }
  }

  /** Selecting twice selects nothing more. */
  lemma {:induction false} SelectIdempotent(pred: Tuple -> bool, ts: seq<Tuple>)
    ensures Select(pred, Select(pred, ts)) == Select(pred, ts)
  {
    if ts != [] {
      SelectIdempotent(pred, ts[1..]);
      var rest := Select(pred, ts[1..]);
      if pred(ts[0]) {
        assert ([ts[0]] + rest)[1..] == rest;
      } else {
        assert [] + rest == rest;
      }
    }
  }

  class Filter {
    const pred: Tuple -> bool
    var child: TupleStream

    constructor (pred: Tuple -> bool, child: TupleStream)
      ensures this.pred == pred && this.child == child
    {
      this.pred := pred;
      this.child := child;
    }

    function GetPredicate(): (p: Tuple -> bool)
      ensures p == pred
    {
      pred
    }

    /** The output schema is the child's. */
    function GetTupleDesc(): (d: TupleDesc)
      reads this
      ensures d == child.desc
    {
      child.desc
    }

    method Open()
      modifies child
      ensures child.Valid() && child.Remaining() == child.tuples
    {
      child.Open();
    }

    method Close()
      modifies child
      ensures child.Valid() && child.Remaining() == []
    {
      child.Close();
    }

    /** rewind delegates to the child's rewind. */
    method Rewind()
      modifies child
      ensures child.Valid() && child.Remaining() == child.tuples
    {
      child.Rewind();
    }

    /** fetchNext: the first remaining child tuple that satisfies the
        predicate, every tuple read before it failing the predicate; None
        (Java's null) only once the child is used up with no tuple passing.
        Either way the selection of what remains loses exactly the tuple
        returned. */
    method FetchNext() returns (r: Option<Tuple>)
      requires child.Valid()
      modifies child
      ensures child.Valid() && |child.Remaining()| <= |old(child.Remaining())|
      ensures var ts := old(child.Remaining());
              var n := |ts| - |child.Remaining()|;
              && child.Remaining() == ts[n..]
              && (forall i :: 0 <= i < n - 1 ==> !pred(ts[i]))
              && (r.Some? ==> 0 < n && r.value == ts[n - 1] && pred(r.value))
              && (r.None? ==> n == |ts| && forall i :: 0 <= i < n ==> !pred(ts[i]))
      ensures Select(pred, old(child.Remaining())) ==
              (if r.Some? then [r.value] else []) + Select(pred, child.Remaining())
    {
      ghost var ts := child.Remaining();
      ghost var k := 0;
      while child.HasNext()
        invariant child.Valid() && k <= |ts| && child.Remaining() == ts[k..]
        invariant forall i :: 0 <= i < k ==> !pred(ts[i])
        invariant Select(pred, ts) == Select(pred, ts[k..])
        decreases |ts| - k
      {
        assert ts[k..][1..] == ts[k + 1..];
        var t := child.Next();
        SelectAt(pred, ts, k);
        k := k + 1;
        if pred(t) {
          return Some(t);
        }
        assert [] + Select(pred, ts[k..]) == Select(pred, ts[k..]);
      }
      r := None;
    }

    /** getChildren: the one child. */
    function GetChildren(): (c: seq<TupleStream>)
      reads this
      ensures |c| == 1 && c[0] == child
    {
      [child]
    }

    /** setChildren: the child becomes `children[0]`; an empty array makes
        the access throw. */
    method SetChildren(children: seq<TupleStream>) returns (o: Outcome)
      modifies this
      ensures children == [] ==> o == Fail(IndexOutOfBounds) && child == old(child)
      ensures children != [] ==> o == Pass && child == children[0] && GetChildren() == [children[0]]
    {
      if children == [] {
        return Fail(IndexOutOfBounds);
      }
      child := children[0];
      o := Pass;
    }
  }

  /** Bookkeeping for a run of fetchNext calls: `out` followed by the
      selection of what remains stays the whole selection. */
  lemma SelectSplit(pred: Tuple -> bool, out: seq<Tuple>, x: Tuple, before: seq<Tuple>, after: seq<Tuple>)
    requires Select(pred, before) == [x] + Select(pred, after)
    ensures out + Select(pred, before) == (out + [x]) + Select(pred, after)
  {
  }

  /** Calling fetchNext until it returns null collects exactly the child's
      remaining tuples that satisfy the predicate, in order. */
  method SelectRest(f: Filter) returns (out: seq<Tuple>)
    requires f.child.Valid()
    modifies f.child
    ensures f.child.Valid() && f.child.Remaining() == []
    ensures out == Select(f.pred, old(f.child.Remaining()))
  {
    var c, p := f.child, f.pred;
    ghost var ts := c.Remaining();
    out := [];
    while true
      invariant c.Valid()
      invariant out + Select(p, c.Remaining()) == Select(p, ts)
      decreases |c.Remaining()|
    {
      ghost var before := c.Remaining();
      var r := f.FetchNext();
      ghost var after := c.Remaining();
      if r.None? {
        assert Select(p, before) == Select(p, after) && after == [];
        return;
      }
      SelectSplit(p, out, r.value, before, after);
      out := out + [r.value];
    }
  }
}

=== FILE: heap_file.dfy ===
/** A heap file: a table stored as a byte sequence of fixed-size pages,
    with page-addressed reads and writes and tuple insert/delete through
    the buffer pool. */
module HeapFiles {
  import opened Common

  type Byte = b: int | 0 <= b < 256

  type PosInt = n: int | n > 0 witness 1

  /** A page as it is read from or written to disk: its id and its bytes. */
  datatype PageImage = PageImage(id: PageId, data: seq<Byte>)

  /** How the buffer pool answers getPage(tid, pid, perm): the page, or the
      exception it raises. */
  type Fetcher = (TransactionId, PageId, Perm) -> Result<HeapPage>

  function Zeros(k: nat): (z: seq<Byte>)
    ensures |z| == k && forall i :: 0 <= i < k ==> z[i] == 0
  {
    seq(k, _ => 0)
  }

  lemma MulMono(a: int, b: int, c: nat)
    requires a <= b
    ensures a * c <= b * c
  {
  }

  /** Number of pages of a file of `len` bytes: the ceiling of len / size. */
  function PageCount(len: nat, size: PosInt): (n: nat)
    ensures n * size >= len
    ensures n > 0 ==> (n - 1) * size < len
  {
    var n := (len + size - 1) / size;
    var r := (len + size - 1) % size;
    assert len + size - 1 == n * size + r;
    assert n * size - size == (n - 1) * size;
    n
  }

  /** The file after seeking to `off` and writing `d`: bytes before the
      offset and after the written range are kept, and a seek past the end
      leaves a zero-filled gap. */
  function Overwrite(s: seq<Byte>, off: nat, d: seq<Byte>): (r: seq<Byte>)
    ensures |r| == if off + |d| <= |s| then |s| else off + |d|
    ensures forall i :: 0 <= i < |d| ==> r[off + i] == d[i]
    ensures forall i :: 0 <= i < |s| && !(off <= i < off + |d|) ==> r[i] == s[i]
  {
    if off <= |s| then
      s[..off] + d + (if off + |d| <= |s| then s[off + |d|..] else [])
    else
      s + Zeros(off - |s|) + d
  }

  /** readPage: None for another table's id, for a page number outside
      [0, numPages), and for a last page shorter than a full page (the read
      hits end of file, and the IOException is swallowed). */
  function ReadImage(contents: seq<Byte>, size: PosInt, tableId: int, pid: PageId): (r: Option<PageImage>)
    ensures pid.tableId != tableId ==> r == None
    ensures pid.pageNumber < 0 || pid.pageNumber >= PageCount(|contents|, size) ==> r == None
    ensures r.Some? <==> pid.tableId == tableId && 0 <= pid.pageNumber && (pid.pageNumber + 1) * size <= |contents|
    ensures r.Some? ==> r.value.id == HeapPageId(tableId, pid.pageNumber) && |r.value.data| == size
    ensures r.Some? ==> forall i :: 0 <= i < size ==> r.value.data[i] == contents[pid.pageNumber * size + i]
  {
    var pgno := pid.pageNumber;
    if tableId != pid.tableId then None
    else if pgno < 0 || pgno >= PageCount(|contents|, size) then None
    else if (pgno + 1) * size > |contents| then None
    else
      assert pgno * size + size == (pgno + 1) * size;
      Some(PageImage(HeapPageId(tableId, pgno), contents[pgno * size .. (pgno + 1) * size]))
  }

  lemma FullPageInRange(len: nat, size: PosInt, pgno: nat)
    requires (pgno + 1) * size <= len
    ensures pgno < PageCount(len, size)
  {
  }

  /** Writing a page then reading it back yields the written bytes. */
  lemma {:induction false} ReadAfterWrite(contents: seq<Byte>, size: PosInt, tableId: int, pgno: nat, d: seq<Byte>)
    requires |d| == size
    ensures ReadImage(Overwrite(contents, pgno * size, d), size, tableId, HeapPageId(tableId, pgno))
            == Some(PageImage(HeapPageId(tableId, pgno), d))
  {
    var s := Overwrite(contents, pgno * size, d);
    assert (pgno + 1) * size == pgno * size + size;
    FullPageInRange(|s|, size, pgno);
    var r := ReadImage(s, size, tableId, HeapPageId(tableId, pgno));
    assert r.Some?;
    assert r.value.data == d;
  }

  /** A write leaves any byte range it does not touch as it was. */
  lemma OverwriteKeeps(s: seq<Byte>, off: nat, d: seq<Byte>, lo: nat, hi: nat)
    requires lo <= hi <= |s| && (hi <= off || off + |d| <= lo)
    ensures Overwrite(s, off, d)[lo..hi] == s[lo..hi]
  {
    var r := Overwrite(s, off, d);
    assert forall i :: lo <= i < hi ==> r[i] == s[i];
  }

  /** Writing one page leaves every other full page of the file as it was. */
  lemma {:induction false} WriteKeepsOtherPages(contents: seq<Byte>, size: PosInt, tableId: int, pgno: nat, d: seq<Byte>, q: int)
    requires |d| == size && q != pgno
    requires ReadImage(contents, size, tableId, HeapPageId(tableId, q)).Some?
    ensures ReadImage(Overwrite(contents, pgno * size, d), size, tableId, HeapPageId(tableId, q))
            == ReadImage(contents, size, tableId, HeapPageId(tableId, q))
  {
    var s := Overwrite(contents, pgno * size, d);
    var lo, hi := q * size, (q + 1) * size;
    assert hi == lo + size;
    if q < pgno {
      MulMono(q + 1, pgno, size);
    } else {
      MulMono(pgno + 1, q, size);
      assert pgno * size + size == (pgno + 1) * size;
    }
    OverwriteKeeps(contents, pgno * size, d, lo, hi);
    FullPageInRange(|s|, size, q as nat);
  }

  /** A file of exactly `k` pages has numPages() == k. */
  lemma WholePages(k: nat, size: PosInt)
    ensures PageCount(k * size, size) == k
  {
  }

  /** Appending one page at page number numPages() of a whole-page file
      grows numPages() by one. */
  lemma {:induction false} AppendGrowsByOne(contents: seq<Byte>, size: PosInt, d: seq<Byte>)
    requires |d| == size && |contents| % size == 0
    ensures PageCount(|Overwrite(contents, PageCount(|contents|, size) * size, d)|, size)
            == PageCount(|contents|, size) + 1
  {
    var k := |contents| / size;
    assert |contents| == k * size;
    WholePages(k, size);
    assert |contents| + size == (k + 1) * size;
    WholePages(k + 1, size);
  }

  /** The page choice of insertTuple: true when some scanned page has a free slot. */
  ghost predicate SomeHasRoom(pages: seq<HeapPage>) {
    exists i :: 0 <= i < |pages| && pages[i].NumEmptySlots() > 0
  }

  /** As written, insertTuple remembers only that some page had room and
      then inserts into the last page scanned: with room on page 0 and a
      full last page the page-level insert fails although a slot is free.
      HeapFile.InsertTuple's ensures for a scan that found room makes its
      result that of the last scanned page's insert, so a file whose pages
      are these two fails the same way. */
  lemma LastScannedPageMayBeFull(tableId: int, t: Tuple)
    ensures exists pages: seq<HeapPage> ::
              && |pages| == 2
              && SomeHasRoom(pages)
              && pages[|pages| - 1].InsertTuple(t) == Err(DbException)
  {
    var p0 := HeapPage(HeapPageId(tableId, 0), [], 1, None);
    var p1 := HeapPage(HeapPageId(tableId, 1), [t], 1, None);
    assert p0.NumEmptySlots() > 0;
    var pages := [p0, p1];
    assert pages[0].NumEmptySlots() > 0;
    assert SomeHasRoom(pages);
  }

  class HeapFile {
    const tableId: int
    const td: TupleDesc
    const pageSize: PosInt
    var contents: seq<Byte>

    constructor (tableId: int, td: TupleDesc, pageSize: PosInt, contents: seq<Byte>)
      ensures this.tableId == tableId && this.td == td && this.pageSize == pageSize
      ensures this.contents == contents
    {
      this.tableId := tableId;
      this.td := td;
      this.pageSize := pageSize;
      this.contents := contents;
    }

    function NumPages(): nat
      reads this
    {
      PageCount(|contents|, pageSize)
    }

    function ReadPage(pid: PageId): Option<PageImage>
      reads this
    {
      ReadImage(contents, pageSize, tableId, pid)
    }

    /** Overwrites pageSize bytes at the page's offset; a negative page
        number makes the seek fail, and the swallowed IOException leaves the
        file unchanged. */
    method WritePage(page: PageImage)
      requires |page.data| >= pageSize
      modifies this
      ensures page.id.pageNumber < 0 ==> contents == old(contents)
      ensures page.id.pageNumber >= 0 ==>
                contents == Overwrite(old(contents), page.id.pageNumber * pageSize, page.data[..pageSize])
      ensures page.id.pageNumber >= 0 ==>
                ReadPage(HeapPageId(tableId, page.id.pageNumber))
                == Some(PageImage(HeapPageId(tableId, page.id.pageNumber), page.data[..pageSize]))
    {
      var pgno := page.id.pageNumber;
      if pgno < 0 {
        return;
      }
      contents := Overwrite(contents, pgno * pageSize, page.data[..pageSize]);
      ReadAfterWrite(old(contents), pageSize, tableId, pgno, page.data[..pageSize]);
    }

    /** The scan loop of insertTuple: fetches pages 0..numPages()-1 with
        READ_WRITE, remembering the last page fetched and whether any page
        had a free slot; stops at the first exception getPage raises. */
    method ScanPages(tid: TransactionId, fetch: Fetcher)
      returns (failure: Option<Error>, scanned: seq<HeapPage>, page: Option<HeapPage>, getPage: bool)
      ensures |scanned| <= NumPages()
      ensures forall i :: 0 <= i < |scanned| ==> fetch(tid, HeapPageId(tableId, i), ReadWrite) == Ok(scanned[i])
      ensures failure.None? <==> |scanned| == NumPages()
      ensures failure.Some? ==> fetch(tid, HeapPageId(tableId, |scanned|), ReadWrite) == Err(failure.value)
      ensures page == if scanned == [] then None else Some(scanned[|scanned| - 1])
      ensures getPage <==> SomeHasRoom(scanned)
    {
      page := None;
      getPage := false;
      failure := None;
      var pageno := NumPages();
      scanned := [];
      for i := 0 to pageno
        invariant |scanned| == i
        invariant forall j :: 0 <= j < i ==> fetch(tid, HeapPageId(tableId, j), ReadWrite) == Ok(scanned[j])
        invariant page == if i == 0 then None else Some(scanned[i - 1])
        invariant getPage <==> SomeHasRoom(scanned)
      {
        var got := fetch(tid, HeapPageId(tableId, i), ReadWrite);
        if got.Err? {
          failure := Some(got.error);
          return;
        }
        page := Some(got.value);
        if got.value.NumEmptySlots() > 0 {
          getPage := true;
        }
        ghost var prev := scanned;
        scanned := scanned + [got.value];
        assert scanned[i] == got.value;
        assert forall j :: 0 <= j < i ==> scanned[j] == prev[j];
        assert SomeHasRoom(scanned) <==> SomeHasRoom(prev) || got.value.NumEmptySlots() > 0;
      }
    }

    /** The new-page branch of insertTuple: page number numPages(), built
        empty with `slots` slots, receives the tuple and is written at once. */
    method AppendPage(t: Tuple, slots: nat, encode: HeapPage -> seq<Byte>) returns (r: Result<seq<HeapPage>>)
      requires forall p :: |encode(p)| >= pageSize
      modifies this
      ensures slots == 0 ==> contents == old(contents) && r == Err(DbException)
      ensures slots > 0 ==>
                var p := HeapPage(HeapPageId(tableId, old(NumPages())), [t], slots, None);
                && r == Ok([p])
                && contents == Overwrite(old(contents), old(NumPages()) * pageSize, encode(p)[..pageSize])
                && ReadPage(p.id) == Some(PageImage(p.id, encode(p)[..pageSize]))
                && (|old(contents)| % pageSize == 0 ==> NumPages() == old(NumPages()) + 1)
    {
      var newpage := HeapPage(HeapPageId(tableId, NumPages()), [], slots, None);
      var ins := newpage.InsertTuple(t);
      if ins.Err? {
        return Err(ins.error);
      }
      var p := ins.value;
      assert p.tuples == [] + [t] == [t];
      WritePage(PageImage(p.id, encode(p)));
      if |old(contents)| % pageSize == 0 {
        AppendGrowsByOne(old(contents), pageSize, encode(p)[..pageSize]);
      }
      r := Ok([p]);
    }

    /** insertTuple: if any scanned page had room the tuple goes into the
        last page scanned (not necessarily one with room); otherwise a new
        page is appended. Always one page on success. */
    method InsertTuple(tid: TransactionId, t: Tuple, fetch: Fetcher, slots: nat, encode: HeapPage -> seq<Byte>)
      returns (r: Result<seq<HeapPage>>, ghost scanned: seq<HeapPage>)
      requires forall p :: |encode(p)| >= pageSize
      modifies this
      ensures r.Ok? ==> |r.value| == 1
      ensures |scanned| <= old(NumPages())
      ensures forall i :: 0 <= i < |scanned| ==> fetch(tid, HeapPageId(tableId, i), ReadWrite) == Ok(scanned[i])
      ensures |scanned| < old(NumPages()) ==>
                && contents == old(contents)
                && fetch(tid, HeapPageId(tableId, |scanned|), ReadWrite).Err?
                && r == Err(fetch(tid, HeapPageId(tableId, |scanned|), ReadWrite).error)
      ensures |scanned| == old(NumPages()) && SomeHasRoom(scanned) ==>
                && contents == old(contents)
                && r == (match scanned[|scanned| - 1].InsertTuple(t)
                         case Ok(p) => Ok([p])
                         case Err(e) => Err(e))
      ensures |scanned| == old(NumPages()) && !SomeHasRoom(scanned) && slots == 0 ==>
                contents == old(contents) && r == Err(DbException)
      ensures |scanned| == old(NumPages()) && !SomeHasRoom(scanned) && slots > 0 ==>
                var p := HeapPage(HeapPageId(tableId, old(NumPages())), [t], slots, None);
                && r == Ok([p])
                && contents == Overwrite(old(contents), old(NumPages()) * pageSize, encode(p)[..pageSize])
                && ReadPage(p.id) == Some(PageImage(p.id, encode(p)[..pageSize]))
                && (|old(contents)| % pageSize == 0 ==> NumPages() == old(NumPages()) + 1)
    {
      var failure, pages, page, getPage := ScanPages(tid, fetch);
      scanned := pages;
      if failure.Some? {
        return Err(failure.value), scanned;
      }
      if getPage {
        var ins := page.value.InsertTuple(t);
        match ins
        case Ok(p) => r := Ok([p]);
        case Err(e) => r := Err(e);
      } else {
        r := AppendPage(t, slots, encode);
      }
    }

    /** deleteTuple: fetches, with READ_WRITE, the page of this table whose
        number is in the tuple's record id, deletes the tuple from it and
        returns that page alone. */
    function DeleteTuple(tid: TransactionId, t: Tuple, fetch: Fetcher): (r: Result<seq<HeapPage>>)
      ensures t.recordId.None? ==> r == Err(NullPointer)
      ensures t.recordId.Some? ==>
                var got := fetch(tid, HeapPageId(tableId, t.recordId.value.pageId.pageNumber), ReadWrite);
                && (got.Err? ==> r == Err(got.error))
                && (got.Ok? ==> (r.Ok? <==> t in got.value.tuples))
                && (got.Ok? && r.Err? ==> r.error == DbException)
                && (r.Ok? ==> |r.value| == 1 && r.value[0].id == got.value.id
                              && r.value[0].capacity == got.value.capacity && r.value[0].dirtier == got.value.dirtier
                              && multiset(r.value[0].tuples) == multiset(got.value.tuples) - multiset{t})
    {
      match t.recordId
      case None => Err(NullPointer)
      case Some(rid) =>
        match fetch(tid, HeapPageId(tableId, rid.pageId.pageNumber), ReadWrite)
        case Err(e) => Err(e)
        case Ok(page) =>
          match page.DeleteTuple(t)
          case Err(e) => Err(e)
          case Ok(p) => Ok([p])
    }
  }
}

=== FILE: heap_file_iterator.dfy ===
/** The heap file's tuple iterator: a cursor that walks the file's pages in
    page order and, within a page, the page's tuples in order, skipping
    pages that hold no tuple. The file is seen as the sequence of its pages'
    tuple lists, as the buffer pool hands them out. */
module Scan {
  import opened Common

  /** All tuples of pages `i`, `i + 1`, ... of `pages`, page after page. */
  function ConcatFrom(pages: seq<seq<Tuple>>, i: nat): seq<Tuple>
    decreases |pages| - i
  {
    if i >= |pages| then [] else pages[i] + ConcatFrom(pages, i + 1)
  }

  /** All tuples of `pages`, page after page. */
  function Concat(pages: seq<seq<Tuple>>): seq<Tuple> {
    ConcatFrom(pages, 0)
  }

  /** Pages with no tuple contribute nothing to the scan. */
  lemma {:induction false} ConcatSkipEmpty(pages: seq<seq<Tuple>>, i: nat, j: nat)
    requires i <= j <= |pages|
    requires forall k :: i <= k < j ==> pages[k] == []
    ensures ConcatFrom(pages, i) == ConcatFrom(pages, j)
    decreases j - i
  {
    if i < j {
      ConcatSkipEmpty(pages, i + 1, j);
      assert [] + ConcatFrom(pages, i + 1) == ConcatFrom(pages, i + 1);
    }
  }

  /** A tuple is scanned from page `i` on iff some page from `i` on holds
      it. */
  lemma {:induction false} ConcatMember(pages: seq<seq<Tuple>>, i: nat, t: Tuple)
    ensures t in ConcatFrom(pages, i) <==> exists j :: i <= j < |pages| && t in pages[j]
    decreases |pages| - i
  {
    if i < |pages| {
      ConcatMember(pages, i + 1, t);
      if exists j :: i <= j < |pages| && t in pages[j] {
        var j :| i <= j < |pages| && t in pages[j];
        if j > i {
          assert t in ConcatFrom(pages, i + 1);
        }
      }
    }
  }

  /** Scanning two runs of pages one after the other yields the first run's
      tuples, then the second's. */
  lemma {:induction false} ConcatFromAppend(a: seq<seq<Tuple>>, b: seq<seq<Tuple>>, i: nat)
    requires i <= |a|
    ensures ConcatFrom(a + b, i) == ConcatFrom(a, i) + ConcatFrom(b, 0)
    decreases |a| - i
  {
    if i == |a| {
      ConcatShift(a, b, 0);
      assert ConcatFrom(a, i) == [];
    } else {
      ConcatFromAppend(a, b, i + 1);
      assert (a + b)[i] == a[i];
    }
  }

  /** The pages of `b` sit `|a|` places further on in `a + b`. */
  lemma {:induction false} ConcatShift(a: seq<seq<Tuple>>, b: seq<seq<Tuple>>, j: nat)
    requires j <= |b|
    ensures ConcatFrom(a + b, |a| + j) == ConcatFrom(b, j)
    decreases |b| - j
  {
    if j < |b| {
      ConcatShift(a, b, j + 1);
      assert (a + b)[|a| + j] == b[j];
    }
  }

  /** The scan of `a + b` is the scan of `a` followed by the scan of `b`. */
  lemma ConcatAppend(a: seq<seq<Tuple>>, b: seq<seq<Tuple>>)
    ensures Concat(a + b) == Concat(a) + Concat(b)
  {
    ConcatFromAppend(a, b, 0);
  }

  class HeapFileIterator {
    /** The tuples of page 0, 1, ... of the file, as getPage returns them. */
    const pages: seq<seq<Tuple>>
    var active: bool
    var currentPageNo: int
    /** The tuples the current page's iterator has not yet returned;
        None stands for a null iterator. */
    var currentPageIter: Option<seq<Tuple>>

    ghost predicate Valid()
      reads this
    {
      && -1 <= currentPageNo < |pages|
      && (!active ==> currentPageNo == -1 && currentPageIter.None?)
      && (currentPageIter.None? <==> currentPageNo == -1)
    }

    /** The cursor rests on a page with a tuple left, or on the last page
        (page -1 for a file with no page). */
    ghost predicate Settled()
      reads this
    {
      (currentPageIter.Some? && currentPageIter.value != []) || currentPageNo == |pages| - 1
    }

    /** What the scan has still to return: the rest of the current page,
        then every later page. */
    ghost function Remaining(): seq<Tuple>
      reads this
      requires Valid()
    {
      (if currentPageIter.Some? then currentPageIter.value else []) + ConcatFrom(pages, currentPageNo + 1)
    }

    /** The constructor leaves the iterator closed. */
    constructor (pages: seq<seq<Tuple>>)
      ensures Valid() && this.pages == pages
      ensures !active && currentPageNo == -1 && currentPageIter == None
    {
      this.pages := pages;
      new;
      Close();
    }

    /** hasNext: on a settled cursor, true exactly when the scan has
        something left. */
    function HasNext(): (b: bool)
      reads this
      ensures Valid() && Settled() ==> (b <==> Remaining() != [])
    {
      currentPageIter.Some? && currentPageIter.value != []
    }

    /** The page-advance loop of open and next: moves to the next page with
        a tuple, or to the last page when no later page has one. */
    method SeekNonEmpty()
      requires Valid() && active && !HasNext()
      modifies this
      ensures Valid() && Settled() && active
      ensures Remaining() == old(Remaining())
      ensures old(currentPageNo) <= currentPageNo
      ensures forall k :: old(currentPageNo) < k < currentPageNo ==> pages[k] == []
      ensures currentPageNo > old(currentPageNo) ==> currentPageIter == Some(pages[currentPageNo])
      ensures currentPageNo == old(currentPageNo) ==> currentPageIter == old(currentPageIter)
    {
      ghost var start := currentPageNo;
      ghost var rest := Remaining();
      while currentPageNo + 1 < |pages| && !HasNext()
        invariant Valid() && active
        invariant start <= currentPageNo
        invariant forall k :: start < k < currentPageNo ==> pages[k] == []
        invariant currentPageNo > start ==> currentPageIter == Some(pages[currentPageNo])
        invariant currentPageNo == start ==> currentPageIter == old(currentPageIter)
        invariant Remaining() == rest
        decreases |pages| - currentPageNo
      {
        assert Remaining() == ConcatFrom(pages, currentPageNo + 1);
        currentPageNo := currentPageNo + 1;
        currentPageIter := Some(pages[currentPageNo]);
      }
    }

    /** open: the cursor goes to the lowest-numbered page with a tuple, or
        has nothing to return when no page has one; the scan then yields
        every tuple of the file in page order. */
    method Open()
      requires Valid()
      modifies this
      ensures Valid() && Settled() && active
      ensures Remaining() == Concat(pages)
      ensures forall k :: 0 <= k < currentPageNo ==> pages[k] == []
      ensures currentPageNo >= 0 ==> currentPageIter == Some(pages[currentPageNo])
      ensures HasNext() <==> exists k :: 0 <= k < |pages| && pages[k] != []
    {
      active := true;
      currentPageNo := -1;
      currentPageIter := None;
      SeekNonEmpty();
      if !HasNext() {
        assert currentPageNo == |pages| - 1;
        assert forall k :: 0 <= k < |pages| ==> pages[k] == [];
      }
    }

    /** next: a closed iterator throws NoSuchElementException. An open one
        returns the scan's next tuple and moves past it, advancing to the
        next page with a tuple once the current page is used up; when the
        scan is over it returns null. */
    method Next() returns (r: Result<Option<Tuple>>)
      requires Valid() && (active ==> Settled())
      modifies this
      ensures Valid() && (active ==> Settled())
      ensures !old(active) ==> r == Err(NoSuchElement) && unchanged(this)
      ensures old(active) ==> active && r.Ok?
      ensures old(active) && old(Remaining()) == [] ==> r == Ok(None) && unchanged(this)
      ensures old(active) && old(Remaining()) != [] ==>
                r == Ok(Some(old(Remaining())[0])) && Remaining() == old(Remaining())[1..]
      ensures old(currentPageNo) <= currentPageNo
    {
      if !active {
        return Err(NoSuchElement);
      }
      var ans: Option<Tuple> := None;
      if HasNext() {
        ans := Some(currentPageIter.value[0]);
        currentPageIter := Some(currentPageIter.value[1..]);
      }
      if !HasNext() {
        if currentPageNo + 1 < |pages| {
          SeekNonEmpty();
        }
      }
      r := Ok(ans);
    }

    /** rewind: throws DbException on a closed iterator, otherwise closes
        and reopens it. */
    method Rewind() returns (o: Outcome)
      requires Valid()
      modifies this
      ensures Valid()
      ensures !old(active) ==> o == Fail(DbException) && unchanged(this)
      ensures old(active) ==> o == Pass && active && Settled() && Remaining() == Concat(pages)
    {
      if !active {
        return Fail(DbException);
      }
      Close();
      Open();
      o := Pass;
    }

    /** close: the iterator becomes inactive with no current page. */
    method Close()
      modifies this
      ensures Valid()
      ensures !active && currentPageNo == -1 && currentPageIter == None
    {
      active := false;
      currentPageNo := -1;
      currentPageIter := None;
    }
  }

  /** A full scan: open, then next while hasNext, collects every tuple of
      the file in page order. */
  method ScanAll(it: HeapFileIterator) returns (out: seq<Tuple>)
    requires it.Valid()
    modifies it
    ensures out == Concat(it.pages)
  {
    it.Open();
    out := [];
    while it.HasNext()
      invariant it.Valid() && it.Settled() && it.active
      invariant out + it.Remaining() == Concat(it.pages)
      decreases |it.Remaining()|
    {
      ghost var before := it.Remaining();
      assert before != [];
      var r := it.Next();
      assert r == Ok(Some(before[0])) && it.Remaining() == before[1..];
      out := out + [r.value.value];
      assert before == [before[0]] + before[1..];
    }
  }
}

=== FILE: insert.dfy ===
/** The Insert operator: on its first fetchNext it hands every tuple its
    child still holds to the buffer pool's insertTuple, then returns a
    one-field tuple with the number of inserts that did not fail with an
    IOException; every later fetchNext returns null. */
module InsertOperator {
  import opened Common
  import opened Streams

  /** One call of the buffer pool's insertTuple(tid, tableId, t). */
  datatype InsertCall = InsertCall(tid: TransactionId, tableId: int, t: Tuple)

  /** The insertTuple calls that inserting `ts` in order makes. */
  function Requests(tid: TransactionId, tableId: int, ts: seq<Tuple>): (r: seq<InsertCall>)
    ensures |r| == |ts|
  {
    if ts == [] then [] else Requests(tid, tableId, ts[..|ts| - 1]) + [InsertCall(tid, tableId, ts[|ts| - 1])]
  }

  /** The i-th logged call inserts the i-th tuple into table `tableId`, on
      behalf of `tid`. */
  lemma {:induction false} RequestsAt(tid: TransactionId, tableId: int, ts: seq<Tuple>, i: nat)
    requires i < |ts|
    ensures Requests(tid, tableId, ts)[i] == InsertCall(tid, tableId, ts[i])
  {
    if i < |ts| - 1 {
      RequestsAt(tid, tableId, ts[..|ts| - 1], i);
    }
  }

  /** Inserting one more tuple logs one more call. */
  lemma RequestsStep(tid: TransactionId, tableId: int, ts: seq<Tuple>, t: Tuple)
    ensures Requests(tid, tableId, ts + [t]) == Requests(tid, tableId, ts) + [InsertCall(tid, tableId, t)]
  {
    assert (ts + [t])[..|ts|] == ts;
  }

  class Insert {
    const tid: TransactionId
    const tableid: int
    const child: TupleStream
    var isInserted: bool
    /** Every insertTuple call made so far, in order. */
    ghost var calls: seq<InsertCall>

    constructor (tid: TransactionId, child: TupleStream, tableid: int)
      ensures this.tid == tid && this.child == child && this.tableid == tableid
      ensures !isInserted && calls == []
    {
      this.tid := tid;
      this.child := child;
      this.tableid := tableid;
      isInserted := false;
      calls := [];
    }

    /** The constructor's schema check: a child whose TupleDesc differs from
        the table's, `tableDesc`, makes it throw DbException. */
    static method Create(tid: TransactionId, child: TupleStream, tableid: int, tableDesc: TupleDesc)
      returns (r: Result<Insert>)
      ensures r.Err? <==> child.desc != tableDesc
      ensures r.Err? ==> r.error == DbException
      ensures r.Ok? ==> fresh(r.value) && r.value.tid == tid && r.value.child == child
                        && r.value.tableid == tableid && !r.value.isInserted && r.value.calls == []
    {
      if child.desc != tableDesc {
        return Err(DbException);
      }
      var ins := new Insert(tid, child, tableid);
      r := Ok(ins);
    }

    /** The output schema: one INT field. */
    function GetTupleDesc(): (d: TupleDesc)
      ensures d == [IntType]
    {
      CountDesc
    }

    method Open()
      requires child.Valid()
      modifies child
      ensures child.Valid() && child.Remaining() == child.tuples
    {
      child.Open();
    }

    method Close()
      modifies child
      ensures child.Valid() && child.Remaining() == []
    {
      child.Close();
    }

    /** rewind: the child is closed and reopened; whether the inserts were
        done is left as it was. */
    method Rewind()
      modifies child
      ensures child.Valid() && child.Remaining() == child.tuples
      ensures isInserted == old(isInserted)
    {
      child.Close();
      child.Open();
    }

    /** fetchNext, where `effect` says how the buffer pool's insertTuple
        ends for each tuple. */
    method FetchNext(effect: Tuple -> Effect) returns (r: Result<Option<Tuple>>)
      requires child.Valid()
      modifies this, child
      ensures child.Valid()
      ensures old(isInserted) ==> r == Ok(None) && unchanged(this) && unchanged(child)
      ensures !old(isInserted) ==>
                var ts := old(child.Remaining());
                var n := Consumed(effect, ts);
                && child.Remaining() == ts[n..]
                && calls == old(calls) + Requests(tid, tableid, ts[..n])
                && match FirstThrown(effect, ts)
                   case None => r == Ok(Some(CountTuple(CountApplied(effect, ts)))) && isInserted
                   case Some(i) => r == Err(effect(ts[i]).error) && !isInserted
    {
      if isInserted {
        return Ok(None);
      }
      var cnt, thrown := ConsumeChild(effect);
      if thrown.Some? {
        return Err(thrown.value);
      }
      isInserted := true;
      r := Ok(Some(CountTuple(cnt)));
    }

    /** One turn of fetchNext's loop: the child's next tuple, `ts[k]`, goes
        to insertTuple, and the call is logged. */
    method InsertNext(effect: Tuple -> Effect, ghost ts: seq<Tuple>, ghost k: nat, ghost base: seq<InsertCall>)
      returns (e: Effect)
      requires child.Valid() && k < |ts| && child.Remaining() == ts[k..]
      requires calls == base + Requests(tid, tableid, ts[..k])
      modifies this, child
      ensures child.Valid() && child.Remaining() == ts[k + 1..] && isInserted == old(isInserted)
      ensures e == effect(ts[k])
      ensures calls == base + Requests(tid, tableid, ts[..k + 1])
    {
      assert ts[k..][1..] == ts[k + 1..];
      assert ts[..k + 1] == ts[..k] + [ts[k]];
      var t := child.Next();
      e := effect(t);
      RequestsStep(tid, tableid, ts[..k], t);
      ghost var logged := Requests(tid, tableid, ts[..k]);
      calls := calls + [InsertCall(tid, tableid, t)];
      assert calls == base + (logged + [InsertCall(tid, tableid, t)]);
    }

    /** fetchNext's loop: reads the child until it is exhausted or an
        insertTuple call throws, logging each call and counting those
        that took effect. */
    method ConsumeChild(effect: Tuple -> Effect) returns (cnt: nat, thrown: Option<Error>)
      requires child.Valid()
      modifies this, child
      ensures child.Valid() && isInserted == old(isInserted)
      ensures var ts := old(child.Remaining());
              var n := Consumed(effect, ts);
              && child.Remaining() == ts[n..]
              && calls == old(calls) + Requests(tid, tableid, ts[..n])
              && match FirstThrown(effect, ts)
                 case None => thrown.None? && cnt == CountApplied(effect, ts)
                 case Some(i) => thrown == Some(effect(ts[i]).error)
    {
      ghost var ts := child.Remaining();
      ghost var k := 0;
      cnt, thrown := 0, None;
      while child.HasNext()
        invariant child.Valid() && isInserted == old(isInserted)
        invariant k <= |ts| && child.Remaining() == ts[k..]
        invariant FirstThrown(effect, ts[..k]).None? && cnt == CountApplied(effect, ts[..k])
        invariant calls == old(calls) + Requests(tid, tableid, ts[..k])
        decreases |ts| - k
      {
        var e := InsertNext(effect, ts, k, old(calls));
        RunStep(effect, ts, k);
        CountStep(effect, ts, k);
        k := k + 1;
        if e.Thrown? {
          assert Consumed(effect, ts) == k;
          return cnt, Some(e.error);
        }
        cnt := cnt + if e == Applied then 1 else 0;
      }
      assert ts[..k] == ts;
      assert Consumed(effect, ts) == k;
    }
  }
}

=== FILE: lock_manager.dfy ===
/** The page lock table: exclusive holders, shared holder sets and the
    reverse index from transactions to the pages they lock. */
module Locking {
  import opened Common

  /** The three maps the lock manager consults, as one value. */
  datatype LockTable = LockTable(
    exclusive: map<PageId, TransactionId>,
    shared: map<PageId, set<TransactionId>>,
    pagesOf: map<TransactionId, set<PageId>>)
  {
    /** `pid` is in `tid`'s held-page set (what holdsLock reports). */
    predicate Holds(tid: TransactionId, pid: PageId) {
      tid in pagesOf && pid in pagesOf[tid]
    }

    /** `tid` appears as a holder in the forward maps. */
    predicate Held(tid: TransactionId, pid: PageId) {
      || (pid in exclusive && exclusive[pid] == tid)
      || (pid in shared && tid in shared[pid])
    }

    /** The single-attempt rule: true when `tid` is locked out of `perm` on `pid`. */
    predicate Locked(tid: TransactionId, pid: PageId, perm: Perm) {
      match perm
      case ReadOnly =>
        if Holds(tid, pid) then false
        else if pid in shared then false
        else pid in exclusive
      case ReadWrite =>
        if pid in shared && |shared[pid]| == 1 && tid in shared[pid] then false
        else (pid in exclusive && exclusive[pid] != tid) || pid in shared
    }

    /** The reference rule of the lock protocol: a shared lock is compatible
        unless another transaction holds the exclusive lock; an exclusive lock
        is compatible unless another transaction holds a lock of either mode. */
    predicate Compatible(tid: TransactionId, pid: PageId, perm: Perm) {
      match perm
      case ReadOnly => !(pid in exclusive && exclusive[pid] != tid)
      case ReadWrite =>
        && (pid !in exclusive || exclusive[pid] == tid)
        && (pid !in shared || shared[pid] <= {tid})
    }

    /** The lock table after granting `perm` on `pid` to `tid`. */
    function Grant(tid: TransactionId, pid: PageId, perm: Perm): (r: LockTable)
      ensures r.Holds(tid, pid)
      ensures perm == ReadOnly ==> pid in r.shared && tid in r.shared[pid] && r.exclusive == exclusive
      ensures perm == ReadWrite ==> pid in r.exclusive && r.exclusive[pid] == tid && pid !in r.shared
      ensures forall p :: p != pid ==> (p in r.exclusive <==> p in exclusive) && (p in r.shared <==> p in shared)
      ensures forall p :: p != pid && p in shared ==> r.shared[p] == shared[p]
      ensures forall p :: p != pid && p in exclusive ==> r.exclusive[p] == exclusive[p]
      ensures forall t :: t != tid ==> (t in r.pagesOf <==> t in pagesOf)
      ensures forall t :: t != tid && t in pagesOf ==> r.pagesOf[t] == pagesOf[t]
      ensures perm == ReadOnly ==> r.shared[pid] == (if pid in shared then shared[pid] else {}) + {tid}
      ensures tid in r.pagesOf && r.pagesOf[tid] == (if tid in pagesOf then pagesOf[tid] else {}) + {pid}
    {
      var forward :=
        match perm
        case ReadOnly =>
          this.(shared := shared[pid := if pid in shared then shared[pid] + {tid} else {tid}])
        case ReadWrite =>
          this.(exclusive := exclusive[pid := tid], shared := shared - {pid});
      forward.(pagesOf := pagesOf[tid := if tid in pagesOf then pagesOf[tid] + {pid} else {pid}])
    }

    /** The lock table after `tid` releases `pid`: `tid` leaves the shared set
        (which stays behind, possibly empty), the exclusive entry goes whoever
        holds it, and `pid` leaves `tid`'s page set. */
    function Release(tid: TransactionId, pid: PageId): (r: LockTable)
      ensures !r.Holds(tid, pid)
      ensures pid !in r.exclusive
      ensures pid in r.shared <==> pid in shared
      ensures pid in shared ==> r.shared[pid] == shared[pid] - {tid}
      ensures forall p :: p != pid ==> (p in r.exclusive <==> p in exclusive) && (p in r.shared <==> p in shared)
      ensures forall p :: p != pid && p in shared ==> r.shared[p] == shared[p]
      ensures forall p :: p != pid && p in exclusive ==> r.exclusive[p] == exclusive[p]
      ensures r.pagesOf.Keys == pagesOf.Keys
      ensures forall t :: t in pagesOf ==> r.pagesOf[t] == if t == tid then pagesOf[t] - {pid} else pagesOf[t]
    {
      LockTable(
        exclusive - {pid},
        if pid in shared then shared[pid := shared[pid] - {tid}] else shared,
        if tid in pagesOf then pagesOf[tid := pagesOf[tid] - {pid}] else pagesOf)
    }
  }

  const EmptyTable := LockTable(map[], map[], map[])

  /** No page has an exclusive holder and a shared entry naming someone else. */
  ghost predicate NoConflict(t: LockTable) {
    forall pid :: pid in t.exclusive && pid in t.shared ==> t.shared[pid] <= {t.exclusive[pid]}
  }

  /** A page is locked exclusively or shared, never both. */
  ghost predicate ExclusiveXorShared(t: LockTable) {
    forall pid :: pid in t.exclusive ==> pid !in t.shared
  }

  /** The reverse index names exactly the holders of the forward maps. */
  ghost predicate IndexExact(t: LockTable) {
    forall tid, pid :: t.Holds(tid, pid) <==> t.Held(tid, pid)
  }

  /** Every shared entry names at least one holder. */
  ghost predicate NoEmptyShared(t: LockTable) {
    forall pid :: pid in t.shared ==> t.shared[pid] != {}
  }

  ghost predicate Consistent(t: LockTable) {
    ExclusiveXorShared(t) && IndexExact(t)
  }

  ghost predicate WellFormed(t: LockTable) {
    Consistent(t) && NoEmptyShared(t)
  }

  lemma EmptyTableWellFormed()
    ensures WellFormed(EmptyTable)
  {
  }

  lemma ConsistentHasNoConflict(t: LockTable)
    requires ExclusiveXorShared(t)
    ensures NoConflict(t)
  {
  }

  /** On a well-formed table the single-attempt rule is exactly the protocol's
      compatibility rule, in both directions and for both modes. */
  lemma LockedIffIncompatible(t: LockTable, tid: TransactionId, pid: PageId, perm: Perm)
    requires WellFormed(t)
    ensures t.Locked(tid, pid, perm) <==> !t.Compatible(tid, pid, perm)
  {
    assert t.Holds(tid, pid) <==> t.Held(tid, pid);
    if perm == ReadWrite && pid in t.shared {
      assert t.shared[pid] != {};
      if t.shared[pid] <= {tid} {
        assert t.shared[pid] == {tid};
      }
      if |t.shared[pid]| == 1 && tid in t.shared[pid] {
        assert |t.shared[pid] - {tid}| == 0;
        assert t.shared[pid] <= {tid};
      }
    }
  }

  /** The documented rule "READ is blocked while another transaction holds
      WRITE" holds whenever the table is consistent. */
  lemma ReadBlockedByForeignWriter(t: LockTable, tid: TransactionId, pid: PageId)
    requires Consistent(t)
    requires pid in t.exclusive && t.exclusive[pid] != tid
    ensures t.Locked(tid, pid, ReadOnly)
  {
    assert t.Holds(tid, pid) <==> t.Held(tid, pid);
  }

  /** A granted WRITE keeps the table well-formed: the upgrade drops the shared entry. */
  lemma GrantWritePreservesWellFormed(t: LockTable, tid: TransactionId, pid: PageId)
    requires WellFormed(t)
    requires !t.Locked(tid, pid, ReadWrite)
    ensures WellFormed(t.Grant(tid, pid, ReadWrite))
  {
    var r := t.Grant(tid, pid, ReadWrite);
    LockedIffIncompatible(t, tid, pid, ReadWrite);
    forall u, p
      ensures r.Holds(u, p) <==> r.Held(u, p)
    {
      assert t.Holds(u, p) <==> t.Held(u, p);
    }
  }

  /** A granted READ keeps the table well-formed when no exclusive entry
      exists for the page; the self-READ of an exclusive holder does not
      (see SelfReadBreaksExclusivity). */
  lemma GrantReadPreservesWellFormed(t: LockTable, tid: TransactionId, pid: PageId)
    requires WellFormed(t)
    requires pid !in t.exclusive
    ensures !t.Locked(tid, pid, ReadOnly)
    ensures WellFormed(t.Grant(tid, pid, ReadOnly))
  {
    var r := t.Grant(tid, pid, ReadOnly);
    forall u, p
      ensures r.Holds(u, p) <==> r.Held(u, p)
    {
      assert t.Holds(u, p) <==> t.Held(u, p);
    }
  }

  /** Releasing a lock one holds (or an unlocked page) keeps the table consistent. */
  lemma ReleaseByHolderPreservesConsistent(t: LockTable, tid: TransactionId, pid: PageId)
    requires Consistent(t)
    requires pid in t.exclusive ==> t.exclusive[pid] == tid
    ensures Consistent(t.Release(tid, pid))
  {
    var r := t.Release(tid, pid);
    forall u, p
      ensures r.Holds(u, p) <==> r.Held(u, p)
    {
      assert t.Holds(u, p) <==> t.Held(u, p);
    }
  }

  /** A grant that `locked` allows keeps the table consistent, provided a
      READ is not on a page with an exclusive entry (the self-READ of
      SelfReadBreaksExclusivity). With ReleaseByHolderPreservesConsistent,
      consistency is the invariant that survives any sequence of such grants
      and of releases by holders; well-formedness is lost at the last
      reader's release (EmptySharedSetBlocksWriters). */
  lemma GrantPreservesConsistent(t: LockTable, tid: TransactionId, pid: PageId, perm: Perm)
    requires Consistent(t)
    requires !t.Locked(tid, pid, perm)
    requires perm == ReadOnly ==> pid !in t.exclusive
    ensures Consistent(t.Grant(tid, pid, perm))
  {
    var r := t.Grant(tid, pid, perm);
    if perm == ReadWrite && pid in t.shared {
      var sh := t.shared[pid];
      assert |sh| == 1 && tid in sh;
      assert |sh - {tid}| == 0;
      assert sh == {tid};
    }
    forall u, p
      ensures r.Holds(u, p) <==> r.Held(u, p)
    {
      assert t.Holds(u, p) <==> t.Held(u, p);
    }
  }

  /** On a consistent table, even one with an empty shared set left by a
      release, whatever `locked` lets through is compatible with the locks
      of the other transactions. */
  lemma UnlockedIsCompatible(t: LockTable, tid: TransactionId, pid: PageId, perm: Perm)
    requires Consistent(t)
    requires !t.Locked(tid, pid, perm)
    ensures t.Compatible(tid, pid, perm)
  {
    assert t.Holds(tid, pid) <==> t.Held(tid, pid);
    if perm == ReadWrite && pid in t.shared {
      var sh := t.shared[pid];
      assert |sh - {tid}| == 0;
      assert sh <= {tid};
    }
  }

  /** Release never introduces a conflict. */
  lemma ReleasePreservesNoConflict(t: LockTable, tid: TransactionId, pid: PageId)
    requires NoConflict(t)
    ensures NoConflict(t.Release(tid, pid))
  {
  }

  /** A grant keeps NoConflict except for a READ on a page whose exclusive
      holder is another transaction. */
  lemma GrantPreservesNoConflict(t: LockTable, tid: TransactionId, pid: PageId, perm: Perm)
    requires NoConflict(t)
    requires perm == ReadOnly ==> pid !in t.exclusive || t.exclusive[pid] == tid
    ensures NoConflict(t.Grant(tid, pid, perm))
  {
    var r := t.Grant(tid, pid, perm);
    forall p | p in r.exclusive && p in r.shared
      ensures r.shared[p] <= {r.exclusive[p]}
    {
      if p != pid {
        assert r.shared[p] == t.shared[p] && r.exclusive[p] == t.exclusive[p];
      }
    }
  }

  /** As written, an exclusive holder's READ creates a shared entry beside
      its exclusive one; a second transaction's READ then passes the
      shared-entry test, and two transactions hold conflicting locks. */
  lemma SelfReadBreaksExclusivity(t1: TransactionId, t2: TransactionId, pid: PageId)
    requires t1 != t2
    ensures var a := EmptyTable.Grant(t1, pid, ReadWrite);
            && WellFormed(a)
            && !a.Locked(t1, pid, ReadOnly)
            && var b := a.Grant(t1, pid, ReadOnly);
            && !b.Locked(t2, pid, ReadOnly)
            && var c := b.Grant(t2, pid, ReadOnly);
            && c.exclusive[pid] == t1 && t2 in c.shared[pid]
            && !NoConflict(c)
  {
    var a := EmptyTable.Grant(t1, pid, ReadWrite);
    assert a.Holds(t1, pid);
    forall u, p
      ensures a.Holds(u, p) <==> a.Held(u, p)
    {
    }
  }

  /** As written, the last reader's release leaves an empty shared set
      behind; from then on every WRITE request on the page is locked out
      although no transaction holds it. */
  lemma EmptySharedSetBlocksWriters(t1: TransactionId, pid: PageId, t2: TransactionId)
    ensures var b := EmptyTable.Grant(t1, pid, ReadOnly).Release(t1, pid);
            && (forall u :: !b.Held(u, pid))
            && b.Compatible(t2, pid, ReadWrite)
            && b.Locked(t2, pid, ReadWrite)
  {
    var b := EmptyTable.Grant(t1, pid, ReadOnly).Release(t1, pid);
    assert b.shared[pid] == {};
  }

  /** As written, releasing a page one does not hold drops another
      transaction's exclusive entry, which still reports holding it. */
  lemma ForeignReleaseDropsExclusive(t1: TransactionId, t2: TransactionId, pid: PageId)
    requires t1 != t2
    ensures var b := EmptyTable.Grant(t1, pid, ReadWrite).Release(t2, pid);
            && b.Holds(t1, pid) && !b.Held(t1, pid)
            && !b.Locked(t2, pid, ReadWrite)
  {
  }

  /** The lock manager: the lock maps, updated in place. */
  class LockManager {
    var exclusiveLockMap: map<PageId, TransactionId>
    var shareLockMap: map<PageId, set<TransactionId>>
    var waitList: map<TransactionId, set<TransactionId>>
    var transactionPageMap: map<TransactionId, set<PageId>>

    function Table(): LockTable
      reads this
    {
      LockTable(exclusiveLockMap, shareLockMap, transactionPageMap)
    }

    constructor ()
      ensures Table() == EmptyTable && waitList == map[]
    {
      exclusiveLockMap := map[];
      shareLockMap := map[];
      waitList := map[];
      transactionPageMap := map[];
    }

    /** Whether `tid` has `pid` in its held-page set. */
    method HoldsLock(tid: TransactionId, pid: PageId) returns (b: bool)
      ensures b <==> tid in transactionPageMap && pid in transactionPageMap[tid]
      ensures b <==> Table().Holds(tid, pid)
    {
      b := false;
      if tid in transactionPageMap {
        if pid in transactionPageMap[tid] {
          b := true;
        }
      }
    }

    /** Whether `tid` is locked out of `perm` on `pid`. */
    method IsLockedOut(tid: TransactionId, pid: PageId, perm: Perm) returns (out: bool)
      ensures out == Table().Locked(tid, pid, perm)
      ensures WellFormed(Table()) ==> (out <==> !Table().Compatible(tid, pid, perm))
    {
      if WellFormed(Table()) {
        LockedIffIncompatible(Table(), tid, pid, perm);
      }
      if perm == ReadOnly {
        if tid in transactionPageMap && pid in transactionPageMap[tid] {
          return false;
        }
        if pid in shareLockMap {
          return false;
        }
        if pid in exclusiveLockMap {
          return true;
        }
      } else {
        if pid in shareLockMap && |shareLockMap[pid]| == 1 && tid in shareLockMap[pid] {
          return false;
        }
        if (pid in exclusiveLockMap && exclusiveLockMap[pid] != tid) || pid in shareLockMap {
          return true;
        }
      }
      return false;
    }

    /** One lock attempt: grants when not locked out, otherwise changes nothing. */
    method Lock(tid: TransactionId, pid: PageId, perm: Perm) returns (granted: bool)
      modifies this
      ensures granted == !old(Table()).Locked(tid, pid, perm)
      ensures Table() == if granted then old(Table()).Grant(tid, pid, perm) else old(Table())
      ensures granted ==> Table().Holds(tid, pid)
      ensures waitList == old(waitList)
    {
      var out := IsLockedOut(tid, pid, perm);
      if out {
        return false;
      }
      if perm == ReadOnly {
        if pid in shareLockMap {
          shareLockMap := shareLockMap[pid := shareLockMap[pid] + {tid}];
        } else {
          shareLockMap := shareLockMap[pid := {tid}];
        }
      } else {
        exclusiveLockMap := exclusiveLockMap[pid := tid];
        shareLockMap := shareLockMap - {pid};
      }
      if tid in transactionPageMap {
        transactionPageMap := transactionPageMap[tid := transactionPageMap[tid] + {pid}];
      } else {
        transactionPageMap := transactionPageMap[tid := {pid}];
      }
      return true;
    }

    /** Retries Lock at most `retries` times. With no other transaction
        running between attempts, every retry sees the same table. */
    method AcquireLock(tid: TransactionId, pid: PageId, perm: Perm, retries: nat) returns (granted: bool)
      modifies this
      ensures granted <==> retries > 0 && !old(Table()).Locked(tid, pid, perm)
      ensures Table() == if granted then old(Table()).Grant(tid, pid, perm) else old(Table())
      ensures waitList == old(waitList)
    {
      granted := false;
      var n := 0;
      while n < retries && !granted
        invariant 0 <= n <= retries
        invariant waitList == old(waitList)
        invariant !granted ==> Table() == old(Table())
        invariant !granted && n > 0 ==> old(Table()).Locked(tid, pid, perm)
        invariant granted ==> n > 0 && !old(Table()).Locked(tid, pid, perm)
        invariant granted ==> Table() == old(Table()).Grant(tid, pid, perm)
      {
        granted := Lock(tid, pid, perm);
        n := n + 1;
      }
    }

    /** Releases whatever lock `tid` has on `pid`. */
    method ReleaseLock(tid: TransactionId, pid: PageId)
      modifies this
      ensures Table() == old(Table()).Release(tid, pid)
      ensures waitList == old(waitList)
    {
      if pid in shareLockMap {
        shareLockMap := shareLockMap[pid := shareLockMap[pid] - {tid}];
      }
      exclusiveLockMap := exclusiveLockMap - {pid};
      if tid in transactionPageMap {
        transactionPageMap := transactionPageMap[tid := transactionPageMap[tid] - {pid}];
      }
    }
  }
}

=== FILE: string_aggregator.dfy ===
/** The string aggregator: COUNT per group, held in a map from group key to
    count. */
module Aggregation {
  import opened Common

  /** The aggregation operator; only COUNT matters to this aggregator. */
  datatype Op = Count | OtherOp(name: string)

  /** The group-by index that means "no grouping". */
  const NoGrouping: int := -1

  /** The key the single group is counted under when there is no grouping. */
  const NoGroupingKey: Field := IntField(0)

  /** The sum of all counts in `m`. */
  ghost function Sum(m: map<Field, int>): int
    decreases m.Keys
  {
    if m == map[] then 0
    else
      var k :| k in m;
      m[k] + Sum(m - {k})
  }

  /** Sum can take any key out first. */
  lemma {:induction false} SumRemove(m: map<Field, int>, k: Field)
    requires k in m
    ensures Sum(m) == m[k] + Sum(m - {k})
    decreases m.Keys
  {
    var j :| j in m && Sum(m) == m[j] + Sum(m - {j});
    if j != k {
      SumRemove(m - {j}, k);
      SumRemove(m - {k}, j);
      assert m - {j} - {k} == m - {k} - {j};
    }
  }

  /** Setting the count of `k` to `v` changes the sum by the difference. */
  lemma SumUpdate(m: map<Field, int>, k: Field, v: int)
    ensures Sum(m[k := v]) == Sum(m) - (if k in m then m[k] else 0) + v
  {
    SumRemove(m[k := v], k);
    assert m[k := v] - {k} == m - {k};
    if k in m {
      SumRemove(m, k);
    } else {
      assert m - {k} == m;
    }
  }

  /** The counts a fresh aggregator starts from: the no-grouping key at
      zero, or no group at all. */
  function InitialCounts(gbfield: int): (m: map<Field, int>)
    ensures gbfield == NoGrouping ==> m.Keys == {NoGroupingKey} && Sum(m) == 0
    ensures gbfield != NoGrouping ==> m == map[] && Sum(m) == 0
  {
    if gbfield == NoGrouping then
      var m := map[NoGroupingKey := 0];
      SumRemove(m, NoGroupingKey);
      assert m - {NoGroupingKey} == map[];
      m
    else map[]
  }

  /** One more tuple in group `key`: an unseen key enters with count 1, a
      seen one goes up by 1, every other group keeps its count. */
  function Bump(counts: map<Field, int>, key: Field): (m: map<Field, int>)
    ensures m.Keys == counts.Keys + {key}
    ensures m[key] == (if key in counts then counts[key] else 0) + 1
    ensures forall k :: k in counts && k != key ==> m[k] == counts[k]
    ensures Sum(m) == Sum(counts) + 1
  {
    var before := if key in counts then counts[key] else 0;
    SumUpdate(counts, key, before + 1);
    counts[key := before + 1]
  }

  /** The group-by index names a field of `t`. */
  predicate HasGroupField(gbfield: int, t: Tuple) {
    0 <= gbfield < |t.fields|
  }

  /** `t` is counted: its group-by field exists and has the group-by type. */
  predicate Accepts(gbfield: int, gbfieldtype: Option<Type>, t: Tuple) {
    HasGroupField(gbfield, t) && gbfieldtype == Some(t.Desc()[gbfield])
  }

  /** How many of `ts` are counted. */
  function CountAccepted(gbfield: int, gbfieldtype: Option<Type>, ts: seq<Tuple>): (n: nat)
    ensures n <= |ts|
  {
    if ts == [] then 0
    else CountAccepted(gbfield, gbfieldtype, ts[..|ts| - 1])
         + (if Accepts(gbfield, gbfieldtype, ts[|ts| - 1]) then 1 else 0)
  }

  /** The output row of one group: its key and its count. */
  function GroupRow(key: Field, n: int): (t: Tuple)
    ensures t.fields == [key, IntField(n)] && t.recordId.None?
  {
    Tuple([key, IntField(n)], None)
  }

  /** The group keys the rows carry in their first field. */
  function GroupKeys(rows: seq<Tuple>): set<Field> {
    if rows == [] then {}
    else
      var last := rows[|rows| - 1];
      GroupKeys(rows[..|rows| - 1]) + (if |last.fields| > 0 then {last.fields[0]} else {})
  }

  /** A key is among the rows' keys iff some row starts with it. */
  lemma {:induction false} GroupKeysMember(rows: seq<Tuple>, k: Field)
    ensures k in GroupKeys(rows) <==> exists i :: 0 <= i < |rows| && |rows[i].fields| > 0 && rows[i].fields[0] == k
  {
    if rows != [] {
      var front := rows[..|rows| - 1];
      GroupKeysMember(front, k);
      if k in GroupKeys(front) {
        var i :| 0 <= i < |front| && |front[i].fields| > 0 && front[i].fields[0] == k;
        assert rows[i] == front[i];
      }
      if exists i :: 0 <= i < |rows| && |rows[i].fields| > 0 && rows[i].fields[0] == k {
        var i :| 0 <= i < |rows| && |rows[i].fields| > 0 && rows[i].fields[0] == k;
        if i < |front| {
          assert front[i] == rows[i];
        }
      }
    }
  }

  /** `rows` holds one row per key of `keys`, each key once, with the key's
      count in `count`. */
  ghost predicate Listed(rows: seq<Tuple>, keys: set<Field>, count: map<Field, int>) {
    && |rows| == |keys| && GroupKeys(rows) == keys
    && (forall i :: 0 <= i < |rows| ==>
          |rows[i].fields| == 2 && rows[i].fields[0] in keys && rows[i].fields[0] in count
          && rows[i] == GroupRow(rows[i].fields[0], count[rows[i].fields[0]]))
    && (forall i, j :: 0 <= i < j < |rows| ==> rows[i].fields[0] != rows[j].fields[0])
  }

  /** Listing one more key keeps the listing exact. */
  lemma ListedStep(rows: seq<Tuple>, keys: set<Field>, count: map<Field, int>, k: Field)
    requires Listed(rows, keys, count) && k in count && k !in keys
    ensures Listed(rows + [GroupRow(k, count[k])], keys + {k}, count)
  {
    var rows' := rows + [GroupRow(k, count[k])];
    assert rows'[..|rows|] == rows;
  }

  class StringAggregator {
    const gbfield: int
    /** None stands for the null type given when there is no grouping. */
    const gbfieldtype: Option<Type>
    const afield: int
    const what: Op
    var count: map<Field, int>

    constructor (gbfield: int, gbfieldtype: Option<Type>, afield: int)
      ensures this.gbfield == gbfield && this.gbfieldtype == gbfieldtype && this.afield == afield
      ensures what == Count && count == InitialCounts(gbfield)
    {
      this.gbfield := gbfield;
      this.gbfieldtype := gbfieldtype;
      this.afield := afield;
      what := Count;
      count := InitialCounts(gbfield);
    }

    /** The constructor's check: any operator but COUNT makes it throw
        IllegalArgumentException. */
    static method Create(gbfield: int, gbfieldtype: Option<Type>, afield: int, what: Op)
      returns (r: Result<StringAggregator>)
      ensures r.Err? <==> what != Count
      ensures r.Err? ==> r.error == IllegalArgument
      ensures r.Ok? ==> fresh(r.value) && r.value.gbfield == gbfield && r.value.gbfieldtype == gbfieldtype
                        && r.value.afield == afield && r.value.what == Count
                        && r.value.count == InitialCounts(gbfield)
    {
      if what != Count {
        return Err(IllegalArgument);
      }
      var agg := new StringAggregator(gbfield, gbfieldtype, afield);
      r := Ok(agg);
    }

    /** mergeTupleIntoGroup: reading the type of a group-by field `t` does
        not have throws NoSuchElementException, which is always the case
        with no grouping; a group-by field of another type leaves the counts
        as they are; otherwise its group's count goes up by one. The sum of
        the counts grows by one exactly when the tuple is counted. */
    method MergeTupleIntoGroup(t: Tuple) returns (o: Outcome)
      modifies this
      ensures o == Fail(NoSuchElement) <==> !HasGroupField(gbfield, t)
      ensures o == Pass <==> HasGroupField(gbfield, t)
      ensures !Accepts(gbfield, gbfieldtype, t) ==> count == old(count)
      ensures Accepts(gbfield, gbfieldtype, t) ==> count == Bump(old(count), t.fields[gbfield])
      ensures Sum(count) == Sum(old(count)) + (if Accepts(gbfield, gbfieldtype, t) then 1 else 0)
    {
      if !(0 <= gbfield < |t.fields|) {
        return Fail(NoSuchElement);
      }
      if gbfieldtype == Some(t.Desc()[gbfield]) {
        count := Bump(count, t.fields[gbfield]);
      }
      o := Pass;
    }

    /** iterator: one (group key, count) row per entry of the map, each key
        once, in the map's enumeration order. */
    method Iterator() returns (rows: seq<Tuple>)
      ensures |rows| == |count| && GroupKeys(rows) == count.Keys
      ensures forall i :: 0 <= i < |rows| ==>
                |rows[i].fields| == 2 && rows[i].fields[0] in count
                && rows[i] == GroupRow(rows[i].fields[0], count[rows[i].fields[0]])
      ensures forall i, j :: 0 <= i < j < |rows| ==> rows[i].fields[0] != rows[j].fields[0]
    {
      var keys := count.Keys;
      ghost var done: set<Field> := {};
      rows := [];
      while keys != {}
        invariant keys !! done && keys + done == count.Keys
        invariant Listed(rows, done, count)
        decreases keys
      {
        var k :| k in keys;
        ListedStep(rows, done, count, k);
        rows := rows + [GroupRow(k, count[k])];
        keys := keys - {k};
        done := done + {k};
      }
      assert done == count.Keys;
    }
  }

  /** Merging `ts` in order, as Aggregate's open does: the first tuple
      without the group-by field stops the run with NoSuchElementException;
      when none is missing, the counts' sum grows by the number of tuples
      counted. */
  method MergeAll(agg: StringAggregator, ts: seq<Tuple>) returns (o: Outcome)
    modifies agg
    ensures o == Pass <==> forall i :: 0 <= i < |ts| ==> HasGroupField(agg.gbfield, ts[i])
    ensures o.Fail? ==> o.error == NoSuchElement
    ensures o == Pass ==> Sum(agg.count) == Sum(old(agg.count)) + CountAccepted(agg.gbfield, agg.gbfieldtype, ts)
  {
    var k := 0;
    while k < |ts|
      invariant k <= |ts|
      invariant forall i :: 0 <= i < k ==> HasGroupField(agg.gbfield, ts[i])
      invariant Sum(agg.count) == Sum(old(agg.count)) + CountAccepted(agg.gbfield, agg.gbfieldtype, ts[..k])
    {
      assert ts[..k + 1][..k] == ts[..k];
      o := agg.MergeTupleIntoGroup(ts[k]);
      if o.Fail? {
        return;
      }
      k := k + 1;
    }
    assert ts[..k] == ts;
    o := Pass;
  }
}

=== FILE: tuple_stream.dfy ===
/** A child operator as the Insert, Delete and Filter operators see it: a
    fixed sequence of tuples read through a cursor, plus the counting
    machinery the two modifying operators share. */
module Streams {
  import opened Common

  /** How one buffer-pool insertTuple or deleteTuple call ended: it took
      effect, it raised an IOException (which the operator catches), or it
      raised an exception the operator lets through. */
  datatype Effect = Applied | IoFailure | Thrown(error: Error)

  /** The one-field tuple an Insert or Delete returns: the count `n`. */
  function CountTuple(n: int): (t: Tuple)
    ensures t.Desc() == CountDesc && t.fields[0] == IntField(n) && t.recordId.None?
  {
    Tuple([IntField(n)], None)
  }

  /** How many of the calls on `ts` took effect. */
  function CountApplied(effect: Tuple -> Effect, ts: seq<Tuple>): (n: nat)
    ensures n <= |ts|
  {
    if ts == [] then 0
    else CountApplied(effect, ts[..|ts| - 1]) + (if effect(ts[|ts| - 1]) == Applied then 1 else 0)
  }

  /** Counting a longer run adds the count of the extra part. */
  lemma {:induction false} CountAppliedAppend(effect: Tuple -> Effect, a: seq<Tuple>, b: seq<Tuple>)
    ensures CountApplied(effect, a + b) == CountApplied(effect, a) + CountApplied(effect, b)
    decreases |b|
  {
    if b == [] {
      assert a + b == a;
    } else {
      var b' := b[..|b| - 1];
      assert (a + b)[..|a + b| - 1] == a + b';
      CountAppliedAppend(effect, a, b');
    }
  }

  /** The count is the whole run exactly when every call took effect, and
      zero exactly when none did. */
  lemma {:induction false} CountAppliedExtremes(effect: Tuple -> Effect, ts: seq<Tuple>)
    ensures CountApplied(effect, ts) == |ts| <==> forall i :: 0 <= i < |ts| ==> effect(ts[i]) == Applied
    ensures CountApplied(effect, ts) == 0 <==> forall i :: 0 <= i < |ts| ==> effect(ts[i]) != Applied
  {
    if ts != [] {
      var front := ts[..|ts| - 1];
      CountAppliedExtremes(effect, front);
      assert forall i :: 0 <= i < |front| ==> front[i] == ts[i];
    }
  }

  /** The position of the first call on `ts` that throws, if any. */
  function FirstThrown(effect: Tuple -> Effect, ts: seq<Tuple>): (r: Option<nat>)
    ensures r.Some? ==> r.value < |ts| && effect(ts[r.value]).Thrown?
  {
    if ts == [] then None
    else if effect(ts[0]).Thrown? then Some(0)
    else
      var rest := FirstThrown(effect, ts[1..]);
      if rest.Some? then Some(rest.value + 1) else None
  }

  /** FirstThrown finds a throwing call with none before it, and finds
      nothing exactly when no call throws. */
  lemma {:induction false} FirstThrownSpec(effect: Tuple -> Effect, ts: seq<Tuple>)
    ensures FirstThrown(effect, ts).None? <==> forall i :: 0 <= i < |ts| ==> !effect(ts[i]).Thrown?
    ensures FirstThrown(effect, ts).Some? ==>
              var k := FirstThrown(effect, ts).value;
              effect(ts[k]).Thrown? && forall i :: 0 <= i < k ==> !effect(ts[i]).Thrown?
  {
    if ts != [] && !effect(ts[0]).Thrown? {
      FirstThrownSpec(effect, ts[1..]);
      assert forall i :: 1 <= i < |ts| ==> ts[i] == ts[1..][i - 1];
    }
  }

  /** A call that throws after a run of calls that do not is the first
      one to throw. */
  lemma FirstThrownAt(effect: Tuple -> Effect, ts: seq<Tuple>, k: nat)
    requires k < |ts| && effect(ts[k]).Thrown?
    requires forall i :: 0 <= i < k ==> !effect(ts[i]).Thrown?
    ensures FirstThrown(effect, ts) == Some(k)
  {
    FirstThrownSpec(effect, ts);
  }

  /** How many of `ts` the operator reads: all of them, or up to and
      including the first call that throws. */
  function Consumed(effect: Tuple -> Effect, ts: seq<Tuple>): (n: nat)
    ensures n <= |ts|
  {
    match FirstThrown(effect, ts)
    case None => |ts|
    case Some(i) => i + 1
  }

  /** One step of the insert and delete loops: after the calls on the
      first `k` tuples of `ts`, none of which threw, the call on the next
      one either throws first or extends the run without a throw. */
  lemma RunStep(effect: Tuple -> Effect, ts: seq<Tuple>, k: nat)
    requires k < |ts| && FirstThrown(effect, ts[..k]).None?
    ensures effect(ts[k]).Thrown? ==> FirstThrown(effect, ts) == Some(k)
    ensures !effect(ts[k]).Thrown? ==> FirstThrown(effect, ts[..k + 1]).None?
  {
    var done, next := ts[..k], ts[..k + 1];
    assert next[..k] == done;
    FirstThrownSpec(effect, done);
    if effect(ts[k]).Thrown? {
      assert forall i :: 0 <= i < k ==> ts[i] == done[i];
      FirstThrownAt(effect, ts, k);
    } else {
      FirstThrownSpec(effect, next);
      assert forall i :: 0 <= i < k ==> next[i] == done[i];
    }
  }

  /** The count over one more tuple adds that tuple's call. */
  lemma CountStep(effect: Tuple -> Effect, ts: seq<Tuple>, k: nat)
    requires k < |ts|
    ensures CountApplied(effect, ts[..k + 1]) == CountApplied(effect, ts[..k]) + (if effect(ts[k]) == Applied then 1 else 0)
  {
    assert ts[..k + 1][..k] == ts[..k];
  }

  class TupleStream {
    const desc: TupleDesc
    const tuples: seq<Tuple>
    var isOpen: bool
    var pos: nat

    ghost predicate Valid()
      reads this
    {
      pos <= |tuples|
    }

    /** What the child has still to hand out: nothing while it is closed. */
    ghost function Remaining(): seq<Tuple>
      reads this
      requires Valid()
    {
      if isOpen then tuples[pos..] else []
    }

    constructor (desc: TupleDesc, tuples: seq<Tuple>)
      ensures Valid() && this.desc == desc && this.tuples == tuples && !isOpen && pos == 0
    {
      this.desc := desc;
      this.tuples := tuples;
      isOpen := false;
      pos := 0;
    }

    function HasNext(): (b: bool)
      reads this
      requires Valid()
      ensures b <==> Remaining() != []
    {
      isOpen && pos < |tuples|
    }

    method Next() returns (t: Tuple)
      requires Valid() && HasNext()
      modifies this
      ensures Valid() && isOpen
      ensures t == old(Remaining())[0] && Remaining() == old(Remaining())[1..]
    {
      t := tuples[pos];
      pos := pos + 1;
    }

    method Open()
      modifies this
      ensures Valid() && isOpen && Remaining() == tuples
    {
      isOpen := true;
      pos := 0;
    }

    method Close()
      modifies this
      ensures Valid() && !isOpen && Remaining() == []
    {
      isOpen := false;
      pos := 0;
    }

    method Rewind()
      modifies this
      ensures Valid() && isOpen && Remaining() == tuples
    {
      Close();
      Open();
    }
  }
}
